=== FILE: README.md ===
# Online photo editor: the action pipeline, in Dafny

This project models the image-processing core of the online photo editor, a Go
HTTP service. A request names a stored image and an ordered list of actions.
Each action is a kind (`crop`, `resize`, `convert`, `blur`, `gamma`,
`contrast`, `sharpen`, `brightness`, `saturation`) with an untyped JSON
payload. The handler does the following:

- validates the request;
- finds and loads the image;
- runs the actions one after another;
- names the result `proc_<timestamp>.<ext>` and saves it.

Each action goes through the same steps:

1. its descriptor is validated;
2. its kind is looked up;
3. its payload is decoded into the kind's parameter record;
4. the record's `validate` tags are checked;
5. the transform is applied.

A `convert` does not touch the pixels. It only changes the extension the
result is saved under. The loop stops at the first failure and saves nothing.

Modules follow the program's structure.

- Shared foundations:
  - `Results`: `Option` and `Result`.
  - `GoInt`: 64-bit integers and their wrap-around.
  - `Json`: payloads.
  - `Text`: `ToLower`, `filepath.Ext`, `strings.Join` and `Split`.
  - `Validate`: the struct-tag validator, reduced to the tags the service uses.
  - `Imaging`: image bounds, rectangles, and the transform library.
- Per-kind parameter records and their transforms:
  - `Crop`, `Resize`, `CmdResize`, `Blur`, `Gamma`, `Contrast`, `Sharpen`,
    `Brightness`, `Saturation`, `Convert`.
- `Response`: the JSON reply envelope and validation-error rendering.
- `ImageStore`: the storage helpers of `cmd/internal/storage/img/img.go`.
  These are `GenerateName`, `SaveImage`, `isImage` and `UploadImage`.
- `Processor`: the multi-action handler.
  - It has a registry, a per-action step, and the loop as a generic fold.
  - The handler is split into `Handle`, `Serve` and `Finish`.
- `Process`: the older crop-only handler.
- `Variants`: where the two handlers differ, and where they agree.
- `Scenarios`: the service's own handler tests, plus concrete chains. These are a
  crop at the origin, a crop past the edge, a failure in the middle of a chain, an
  unknown action, an out-of-range brightness, a zero payload, and a conversion.

Pixel transforms are the fields of an `Imaging.Library` record of arbitrary
total functions. The only one whose arguments matter is `crop`, with its
rectangle. Likewise, JSON decoding into a parameter record is a field of a
`Processor.Codec` record of partial functions. Every property below holds for
every library and every codec. The store behind the handler is a record of
functions, `Processor.ImageProcessor`. Each reply records the calls made on it,
so "nothing is saved" is a statement about that call trace.

The crop record's `X` and `Y` carry `required`, and on a plain `int` field the
validator treats the zero value as missing. A crop at offset 0 is therefore
rejected (`Scenarios.CropAtOriginRejected`), and the same holds for every numeric
parameter field: `required` rejects 0. The action's `Params` field is an
`interface{}`, where `required` rejects only nil, so a payload of 0, `false` or
`""` passes the descriptor check and fails later, in decoding
(`Scenarios.ZeroPayloadReachesDecoder`).

## Model

| member | source | states |
|---|---|---|
| GoInt.Wrap64 | cmd/internal/lib/api/crop/crop.go:28 | the result is the int64 value congruent to the input modulo 2^64, and equals it when it is in range |
| GoInt.Add64 | cmd/internal/lib/api/crop/crop.go:28 | Go's int64 `+`: exact when the sum fits, the sum minus 2^64 when it overflows upwards |
| Text.ToLower | cmd/internal/http-server/handlers/image/processor/processor.go:108 | lower-casing keeps the length and maps each character through the ASCII lower-case map |
| Text.LowerFixedPoint | cmd/internal/http-server/handlers/image/processor/processor.go:108 | a string is its own lower-case form exactly when it has no upper-case letter, and `ToLower` always yields such a string |
| Text.Ext | cmd/internal/http-server/handlers/image/processor/processor.go:108 | the extension is a suffix of the path that starts with its only '.' and holds no '/', or it is empty exactly when the last element has no '.' |
| Text.SplitJoin | cmd/internal/lib/api/response/response.go:49-52 | splitting on ", " undoes joining with ", " when no part contains the separator |
| Validate.FirstFailing | cmd/internal/lib/api/response/response.go:42-47 | the reported tag is the first one that rejects the value, and none is reported exactly when every tag holds |
| Validate.Struct | cmd/internal/lib/api/response/response.go:55-66 | no errors exactly when every field satisfies its tags, and never more errors than fields |
| Validate.FailingExact | cmd/internal/lib/api/response/response.go:42-47 | the failing positions are exactly the fields that fail their tags, each once, in increasing order |
| Validate.StructInOrder | cmd/internal/lib/api/response/response.go:42-47 | exactly one error per failing field, in declaration order, the j-th naming the j-th failing field and the first tag it failed |
| Validate.StructSound | cmd/internal/lib/api/response/response.go:42-47 | every reported error names a field and the first tag it fails |
| Validate.StructComplete | cmd/internal/lib/api/response/response.go:42-47 | every invalid field is reported |
| Validate.ErrorLines | cmd/internal/lib/api/crop/crop.go:25 | one line per validation error, in order, each rendering that error |
| Imaging.MakeRect | cmd/internal/lib/api/crop/crop.go:40-41 | `image.Rect` puts its corners in order and keeps the coordinates given |
| Response.OK | cmd/internal/lib/api/response/response.go:24-28 | status "OK" with no error text |
| Response.Error | cmd/internal/lib/api/response/response.go:30-35 | status "Error" carrying exactly the message |
| Response.FieldMessages | cmd/internal/lib/api/response/response.go:42-47 | one "field X is not valid" message per error, in order |
| Response.ValidationError | cmd/internal/lib/api/response/response.go:37-53 | status "Error"; the text is empty exactly when there are no errors and begins with the first field's message |
| Response.FieldMessageHasNoComma | cmd/internal/lib/api/response/response.go:44-46 | a message about a field whose name has no comma holds no ", " |
| Response.ValidationErrorMessages | cmd/internal/lib/api/response/response.go:49-52 | the joined text splits back into exactly the per-field messages |
| Response.Validation | cmd/internal/lib/api/response/response.go:55-66 | the check passes exactly when there are no errors, and a response is written exactly when it fails, with a non-empty error |
| Crop.Errors | cmd/internal/lib/api/crop/crop.go:11-16 | the tags pass exactly when X, Y, Width and Height are all at least 1 (`required` rejects 0) |
| Crop.Check | cmd/internal/lib/api/crop/crop.go:18-33 | valid exactly when the tags pass and the area lies inside the image; a tag failure is reported before a bounds failure |
| Crop.HandleCrop | cmd/internal/lib/api/crop/crop.go:35-42 | succeeds exactly when `Check` does, cropping to the rectangle (X, Y)-(X+W, Y+H), which then lies inside the image |
| Crop.ErrorText | cmd/internal/lib/api/crop/crop.go:25-30 | the text starts with the operation name; it starts with "… validation failed: " exactly for a tag failure and is the fixed boundary text exactly for a bounds failure, so the two never read alike |
| Crop.CheckAsWritten | cmd/internal/lib/api/crop/crop.go:28-30 | the guard with wrapping int64 sums only reports bounds errors for areas that really are outside |
| Crop.WrappedGuardAdmitsOutsideArea | cmd/internal/lib/api/crop/crop.go:28-30 | X = MaxInt64, W = 1 passes the wrapped guard on a 100x100 image, though the area lies outside it |
| Crop.AsWrittenAgreesWithoutOverflow | cmd/internal/lib/api/crop/crop.go:28-30 | when neither sum overflows, the guard as written and the corrected one agree |
| Resize.Errors | internal/lib/api/resize/resize.go:9-12 | valid exactly when both sides lie in 1..8000 |
| Resize.Boundaries | internal/lib/api/resize/resize.go:10-11 | sides 1 and 8000 pass; a zero side fails `required` and a negative one fails `min`, naming the side |
| Resize.OversizeRejected | internal/lib/api/resize/resize.go:10-11 | 8001 fails `max` on each side |
| Resize.ResizeImage | internal/lib/api/resize/resize.go:14-16 | never fails, and asks the library for exactly Width x Height |
| CmdResize.Errors | cmd/internal/lib/api/resize/resize.go:9-12 | valid exactly when both sides are positive |
| CmdResize.HandleResize | cmd/internal/lib/api/resize/resize.go:16-18 | never fails, and asks the library for exactly Width x Height |
| CmdResize.LooserThanBounded | cmd/internal/lib/api/resize/resize.go:10-11 | every size the bounded record accepts is accepted here, and 8001 only here |
| Blur.Errors | internal/lib/api/blur/blur.go:9-11 | valid exactly when sigma lies in 0.1..100; a failure names Sigma and its first failing tag |
| Blur.Boundaries | internal/lib/api/blur/blur.go:10 | both ends pass; 0, 0.05 and 100.5 fail on `required`, `min` and `max` respectively |
| Blur.BlurImage | internal/lib/api/blur/blur.go:13-15 | never fails, blurring with the given sigma |
| Gamma.Errors | internal/lib/api/gamma/gamma.go:9-11 | valid exactly when sigma lies in 0.1..100, with the first failing tag reported |
| Gamma.Boundaries | internal/lib/api/gamma/gamma.go:10 | both ends pass and the values just outside fail, each on its tag |
| Gamma.GammaImage | internal/lib/api/gamma/gamma.go:13-15 | never fails, adjusting gamma by the given value |
| Sharpen.Errors | internal/lib/api/sharpen/sharpen.go:9-11 | valid exactly when sigma lies in 0.1..100, with the first failing tag reported |
| Sharpen.Boundaries | internal/lib/api/sharpen/sharpen.go:10 | both ends pass and the values just outside fail, each on its tag |
| Sharpen.SharpenImage | internal/lib/api/sharpen/sharpen.go:13-15 | never fails, sharpening with the given sigma |
| Contrast.Errors | cmd/internal/lib/api/contrast/contrast.go:9-11 | valid exactly when the percentage is non-zero and in -100..100, with the first failing tag reported |
| Contrast.Boundaries | cmd/internal/lib/api/contrast/contrast.go:10 | -100 and 100 pass; 0 fails `required` and values beyond either end fail `min` or `max` |
| Contrast.ContrastImage | cmd/internal/lib/api/contrast/contrast.go:13-15 | never fails, adjusting contrast by the given percentage |
| Brightness.Errors | cmd/internal/lib/api/brightness/brightness.go:9-11 | valid exactly when the percentage is non-zero and in -100..100, with the first failing tag reported |
| Brightness.Boundaries | cmd/internal/lib/api/brightness/brightness.go:10 | -100 and 100 pass; 0, -100.5 and 150 fail on `required`, `min` and `max` respectively |
| Brightness.BrightnessImage | cmd/internal/lib/api/brightness/brightness.go:13-15 | never fails, adjusting brightness by the given percentage |
| Saturation.Errors | internal/lib/api/saturation/saturation.go:9-11 | valid exactly when the percentage is non-zero and in -100..100, with the first failing tag reported |
| Saturation.Boundaries | internal/lib/api/saturation/saturation.go:10 | -100 and 100 pass; 0 fails `required` and values beyond either end fail `min` or `max` |
| Saturation.SaturationImage | internal/lib/api/saturation/saturation.go:13-15 | never fails, adjusting saturation by the given percentage |
| Convert.Errors | cmd/internal/lib/api/convert/convert.go:3-5 | valid exactly when the format is non-empty, at most 10 characters and has no upper-case letter |
| Convert.RejectsEmptyAndUpperCase | cmd/internal/lib/api/convert/convert.go:4 | "" fails `required` and "PNG" fails `lowercase` |
| Convert.RejectsLongFormat | cmd/internal/lib/api/convert/convert.go:4 | an 11-character format fails `max` |
| Convert.ConvertImage | cmd/internal/lib/api/convert/convert.go:7-9 | never fails, and yields the requested format unchanged |
| ImageStore.Digits | cmd/internal/storage/img/img.go:153 | decimal digits only, with widths bounded by the magnitude |
| ImageStore.Padded | cmd/internal/storage/img/img.go:153 | zero-padded to at least the width, digits only |
| ImageStore.FormatStamp | cmd/internal/storage/img/img.go:153 | the `20060102150405` layout: 14 digits for a valid date and time |
| ImageStore.DecimalDigits | cmd/internal/storage/img/img.go:153 | reading the digits of n back gives n |
| ImageStore.DecimalPadded | cmd/internal/storage/img/img.go:153 | padding does not change the value read back |
| ImageStore.StampRoundTrip | cmd/internal/storage/img/img.go:153 | parsing a formatted timestamp gives back the date and time |
| ImageStore.NormaliseExt | cmd/internal/storage/img/img.go:149-151 | the extension starts with '.', adding one only when it is missing |
| ImageStore.NormaliseIdempotent | cmd/internal/storage/img/img.go:149-151 | normalising twice is normalising once |
| ImageStore.GenerateName | cmd/internal/storage/img/img.go:144-154 | fails exactly when the prefix or extension is empty; otherwise `<prefix>_<14-digit stamp><.ext>` with the stamp at its fixed place |
| ImageStore.GeneratedNameExtension | cmd/internal/storage/img/img.go:144-154 | the generated name's `filepath.Ext` is the normalised extension |
| ImageStore.FormatFor | cmd/internal/storage/img/img.go:128-135 | `.jpg` and `.jpeg` select JPEG, `.png` selects PNG, anything else nothing |
| ImageStore.JoinPath | cmd/internal/storage/img/img.go:123 | the joined path ends with the name |
| ImageStore.SaveImage | cmd/internal/storage/img/img.go:120-142 | an unsupported lower-cased extension is refused without writing; a supported one calls the encoder for its format on root/name (recorded whether or not the encoder then fails), and success returns that path |
| ImageStore.IsImage | cmd/internal/storage/img/img.go:176-183 | an accepted MIME type is an `image/` subtype (which two types exactly: `ImageStore.UploadAcceptsOnlyJpegAndPng`) |
| ImageStore.UploadAcceptsOnlyJpegAndPng | cmd/internal/storage/img/img.go:31-57 | a file is created exactly when reading and rewinding succeed, the type is image/jpeg or image/png (`isImage`, img.go:176-183), the name has an extension and `os.Create` succeeds at the generated path; image/jpg and image/gif are refused |
| ImageStore.UploadImage | cmd/internal/storage/img/img.go:31-67 | an unsupported MIME type is refused before anything is created; a file counts as created only when `os.Create` succeeded, and it is `root/img_<stamp><ext>`; success happens exactly when the file was created and the copy into it succeeded, and returns `/images/<name>`; a file without extension is never stored |
| Processor.Lookup | cmd/internal/http-server/handlers/image/processor/processor.go:30-40 | a found kind's name is the action exactly, and no kind is found only when no name matches |
| Processor.LookupExact | cmd/internal/http-server/handlers/image/processor/processor.go:122 | dispatch selects kind k exactly when the action string is k's name (case-sensitive, exact) |
| Processor.ActionErrors | cmd/internal/http-server/handlers/image/processor/processor.go:42-45 | a descriptor is valid exactly when its action is non-empty and at most 10 characters and its payload is present: any non-null value passes `required` on the `interface{}` field, 0 and "" included |
| Processor.RequestErrors | cmd/internal/http-server/handlers/image/processor/processor.go:47-50 | a request is valid exactly when it has at least one action and a non-empty image name of at most 100 characters |
| Processor.Decode | cmd/internal/http-server/handlers/image/processor/processor.go:270-276 | a decoded payload is a record of the kind asked for |
| Processor.ParamErrors | cmd/internal/http-server/handlers/image/processor/processor.go:132 | a record's tags pass exactly when its kind's validity predicate holds |
| Processor.Apply | cmd/internal/http-server/handlers/image/processor/processor.go:136-232 | convert keeps the image and sets the extension to the format; every other kind replaces the image with its transform; only a crop can fail, exactly when its tags or bounds fail |
| Processor.Step | cmd/internal/http-server/handlers/image/processor/processor.go:119-245 | descriptor errors, unknown names, undecodable payloads (as that kind), and validation and transform failures are each reported at this index; success means the action was accepted and yields the transformed state |
| Processor.KnownAction | cmd/internal/http-server/handlers/image/processor/processor.go:119-125 | a well-formed descriptor with a registered name passes validation and is decoded as that kind |
| Processor.StepOnDecoded | cmd/internal/http-server/handlers/image/processor/processor.go:132-136 | once decoded, the step fails on invalid parameters and otherwise applies them |
| Processor.FoldAppend | cmd/internal/http-server/handlers/image/processor/processor.go:118-246 | running a concatenation runs the first part, then the second on its result |
| Processor.FoldFailsAt | cmd/internal/http-server/handlers/image/processor/processor.go:118-246 | a failing loop has a first failing position: the prefix before it succeeds and that step produces the failure |
| Processor.Run | cmd/internal/http-server/handlers/image/processor/processor.go:118-246 | a failure always points at one of the actions run |
| Processor.RunCons | cmd/internal/http-server/handlers/image/processor/processor.go:118-246 | the first action runs, and the rest only after it succeeds, on its result |
| Processor.RunAppend | cmd/internal/http-server/handlers/image/processor/processor.go:118-246 | running a + b is running a, then b from where a left off |
| Processor.SuccessAcceptedAll | cmd/internal/http-server/handlers/image/processor/processor.go:118-246 | a successful loop accepted every action: each was well-formed, known, decodable and valid |
| Processor.ExtensionStaysLowerCase | cmd/internal/http-server/handlers/image/processor/processor.go:108 | a lower-case starting extension stays lower-case through any successful chain |
| Processor.LaterActionsNeverRun | cmd/internal/http-server/handlers/image/processor/processor.go:240-245 | once the loop fails, appended actions change nothing |
| Processor.FailureIsFirst | cmd/internal/http-server/handlers/image/processor/processor.go:118-246 | the reported failure comes from the first failing action, run on the state all earlier actions left |
| Processor.UnknownActionStops | cmd/internal/http-server/handlers/image/processor/processor.go:233-238 | an unknown name after successful actions stops the loop at that index, naming it |
| Processor.FinalExtension | cmd/internal/http-server/handlers/image/processor/processor.go:221-232 | after success the extension is the last convert's format, or the loaded one when nothing converts |
| Processor.ConversionsKeepImage | cmd/internal/http-server/handlers/image/processor/processor.go:221-232 | a chain of conversions leaves the pixels untouched |
| Processor.DecodeFailureTextIdentifiesKind | cmd/internal/http-server/handlers/image/processor/processor.go:125-128 | the corrected decode-failure messages of distinct kinds differ |
| Processor.DecodeTextAsWrittenMisnames | cmd/internal/http-server/handlers/image/processor/processor.go:173-214 | as written, contrast reports "invalid gamma params" and brightness and saturation report "invalid sharpen params"; every other kind names itself |
| Processor.Render | cmd/internal/http-server/handlers/image/processor/processor.go:119-245 | every failure renders an "Error" response: a descriptor or record failing its tags gets the validator's rendering; an unknown action gets "field <action> must be one of the allowed values`" (with its trailing backtick); an undecodable payload gets the kind's decode message; a failed transform gets "failed to perform action <kind>: <cause>" |
| Processor.RenderReadBack | cmd/internal/http-server/handlers/image/processor/processor.go:233-245 | the unknown action's name, and the failed kind and its cause, can be read back out of the rendered message |
| Processor.Finish | cmd/internal/http-server/handlers/image/processor/processor.go:248-266 | the output is named with prefix "proc" and the final extension, then saved; the reply is OK with the URL exactly when both succeed |
| Processor.Loaded | cmd/internal/http-server/handlers/image/processor/processor.go:100-116 | there is a starting state exactly when the image is found and loaded; it holds the loaded image and `ToLower` of the found path's extension, which is lower-case, as long as that extension and starts with a dot |
| Processor.Serve | cmd/internal/http-server/handlers/image/processor/processor.go:100-266 | find comes first; a missing image, a failed load and a failed chain each get their reply, saving nothing; naming is attempted exactly when the image was loaded and every action succeeded, and what follows is `Finish` |
| Processor.Handle | cmd/internal/http-server/handlers/image/processor/processor.go:77-266 | an empty or undecodable body and an invalid request are answered without touching the store; the store is used exactly when the request decodes and is valid |
| Process.RequestErrors | cmd/internal/http-server/handlers/img/process/process.go:34-37 | a request is valid exactly when actions are present (even empty) and the name is non-empty and at most 100 characters |
| Process.Step | cmd/internal/http-server/handlers/img/process/process.go:106-129 | only "crop" is dispatched: any other name is unknown, an undecodable crop is reported as such, a `HandleCrop` error is passed on unchanged, and a crop succeeds exactly when it decodes and passes `HandleCrop`, yielding the crop |
| Process.Run | cmd/internal/http-server/handlers/img/process/process.go:106-129 | a failure names an action of the request, and is exactly what that action's step reported on the image the actions before it produced |
| Process.SuccessMeansAllCrops | cmd/internal/http-server/handlers/img/process/process.go:106-129 | a successful loop consisted only of crops |
| Process.FirstNonCropStops | cmd/internal/http-server/handlers/img/process/process.go:117-121 | the first non-crop after successful crops stops the loop as an unknown action |
| Process.Render | cmd/internal/http-server/handlers/img/process/process.go:110-128 | an "Error" response: "invalid crop params" for an undecodable crop, "unknown action: <action>" for any other name, and "failed to perform action crop: <crop error>" when `HandleCrop` fails |
| Process.RenderReadBack | cmd/internal/http-server/handlers/img/process/process.go:110-128 | the unknown action's name and the crop error's text can be read back out of the message, and the three kinds of failure never read alike |
| Process.Finish | cmd/internal/http-server/handlers/img/process/process.go:131-149 | the output is named "proc" with the lower-cased source extension, then saved; OK with the URL exactly when both succeed |
| Process.OutputName | cmd/internal/http-server/handlers/img/process/process.go:131 | a name is generated exactly when the found path has an extension; it starts with `proc_` and ends with the lower-cased extension |
| Process.Serve | cmd/internal/http-server/handlers/img/process/process.go:90-149 | find comes first; a missing image, a failed load and a failed chain each get their reply, saving nothing; exactly when the image was loaded and every action succeeded, what follows is `Finish` |
| Process.Handle | cmd/internal/http-server/handlers/img/process/process.go:59-149 | bodies that are empty, undecodable or invalid are answered without touching the store; the store is used exactly when the request is valid |
| Process.OutputKeepsExtension | cmd/internal/http-server/handlers/img/process/process.go:131 | the output name carries the source file's lower-cased extension |
| Process.NoExtensionIsNotSaved | cmd/internal/http-server/handlers/img/process/process.go:131-137 | a source without an extension cannot be named, so nothing is saved |
| Variants.EmptyActionList | cmd/internal/http-server/handlers/img/process/process.go:35 | the older handler accepts an empty list and keeps the image, while the later one rejects it |
| Variants.ResizePassesValidationButIsUnknown | cmd/internal/http-server/handlers/img/process/process.go:30 | the `oneof` tag is never applied: a resize passes validation and the loop then refuses it as unknown |
| Variants.Lift | cmd/internal/http-server/handlers/image/processor/processor.go:42-45 | the same descriptors, action by action, in the later handler's type |
| Variants.CropStepsAgree | cmd/internal/http-server/handlers/img/process/process.go:108-116 | on a single crop, both handlers succeed together with the same image, and otherwise fail at the same index |
| Variants.CropChainsAgree | cmd/internal/http-server/handlers/img/process/process.go:106-129 | on any chain of crops, both loops succeed together with the same image, and otherwise fail at the same index |
| Variants.CropRunsAgree | cmd/internal/http-server/handlers/image/processor/processor.go:118-246 | as above, from the first action |
| Scenarios.PngExtension | internal/http-server/handlers/image/processor/processor_test.go:25-38 | the test image's extension is ".png" |
| Scenarios.ResizeRuns | internal/http-server/handlers/image/processor/processor_test.go:20-55 | the test's resize to 100x100 succeeds and resizes the loaded image |
| Scenarios.TestRequestLoads | internal/http-server/handlers/image/processor/processor_test.go:25-38 | the mock store finds and loads the test image |
| Scenarios.TestRequestServed | internal/http-server/handlers/image/processor/processor_test.go:20-55 | the test request gets through find, load and the loop |
| Scenarios.TestRequestFinishes | internal/http-server/handlers/image/processor/processor_test.go:49-54 | naming and saving succeed and the reply carries the mock's URL |
| Scenarios.ResizeRequestSucceeds | internal/http-server/handlers/image/processor/processor_test.go:20-55 | the successful test: status OK with the saved image's URL |
| Scenarios.MissingImageIsReported | internal/http-server/handlers/image/processor/processor_test.go:57-89 | an image the store cannot find gives "failed to find image" and nothing else happens |
| Scenarios.CropAtOriginRejected | cmd/internal/lib/api/crop/crop.go:12-13 | a crop at offset 0 fails validation at its index, after a successful resize |
| Scenarios.CropBeyondBoundsFails | cmd/internal/lib/api/crop/crop.go:28-30 | a 50x50 crop at (90, 90) on a 100x100 image fails the bounds check |
| Scenarios.MiddleFailureStops | cmd/internal/http-server/handlers/image/processor/processor.go:240-245 | in resize, bad crop, sharpen, the failure is reported at index 1 and sharpen never runs |
| Scenarios.MiddleFailureSavesNothing | cmd/internal/http-server/handlers/image/processor/processor.go:240-245 | the same chain through the handler names and saves nothing |
| Scenarios.ZeroPayloadReachesDecoder | cmd/internal/http-server/handlers/image/processor/processor.go:44 | a payload of 0 passes the descriptor's `required` and is reported as undecodable, not as invalid |
| Scenarios.RotateIsUnknown | cmd/internal/http-server/handlers/image/processor/processor.go:233-238 | "rotate" is refused as an unknown action |
| Scenarios.BrightnessOutOfRange | cmd/internal/lib/api/brightness/brightness.go:10 | brightness 150 fails validation on `max` |
| Scenarios.ConvertJpegToPng | cmd/internal/http-server/handlers/image/processor/processor.go:221-232 | converting a loaded jpeg to "png" keeps the pixels and switches the extension |
| Scenarios.PngName | cmd/internal/storage/img/img.go:144-154 | the converted result is named `proc_<stamp>.png` |

## Left out

- Pixel numerics of every transform (Lanczos resize, blur, gamma, and so on). The library is an arbitrary record of functions. Resize idempotence and similar numeric facts are therefore not stated.
- JSON encoding and decoding. `decodeParams` (a marshal followed by an unmarshal) is an abstract partial decoder per kind.
- Type coercions inside the decoder, such as a float into an int field, are not modelled.
- The validator's reflection machinery. Only the tags used here are modelled: `required`, `min`, `max`, `gte`, `lowercase`. Size tags on fields of the wrong type are not modelled; they make the validator panic, and no struct here declares one.
- HTTP status codes, logging and the router.
- The filesystem behind `FindImage`, `LoadImage` and `DeleteImage`, and the concrete `New` storage. These are parameters or left out.
- Image encoders. `SaveImage` takes the encoder as a parameter.
- Reading and seeking the upload stream, `os.Create` and `io.Copy`. `UploadImage` takes their outcomes as parameters.
- The clock. `time.Now` is a `DateTime` parameter of `GenerateName`.
- MIME sniffing: `isImage` receives the detected type.
- `filepath.Join` is modelled as concatenation with "/", without `Clean`.
- Text.ToLower: `strings.ToLower` is modelled for ASCII letters only, because the model has no Unicode case tables.
- Text.LowerFixedPoint: holds for ASCII case only, for the same reason.
- Convert.Errors: the `lowercase` tag is checked with the ASCII-only `Text.ToLower`, so a format with a non-ASCII upper-case letter passes here but fails in Go.
- The single-action handlers (`crop`, `convert`, `gamma`) and the save handlers. They are not part of this model.
- `main.go` wiring and `storage.go` are not part of this model.
- The multi-action handler calls `CropImage` and `ResizeImage`, but the crop record here defines `HandleCrop`, and only `internal/lib/api/resize` defines `ResizeImage`. Those are the two the model uses: crop with its bounds check, and resize with its 0..8000 tags.
- Crop.HandleCrop: runs the corrected bounds guard `Crop.Check`, not the wrapping one at crop.go:28. The Go code crops and saves an area outside the image when X + Width overflows int64, for example X = 9223372036854774784, Width = 2048 on a 100x100 image. The model reports a bounds failure instead (see Findings).
- Processor.Apply: its crop branch uses `Crop.HandleCrop`, so it has the same corrected guard.
- Processor.Step: inherits the corrected crop guard through `Processor.Apply`, so an overflowing crop is a failure here although the Go handler accepts it.
- Process.Step: calls `Crop.HandleCrop`, so it has the same corrected guard.
- Processor.Render: an undecodable payload is answered with the corrected `Processor.DecodeFailureText`, which names the action's own kind. The Go handler sends "invalid gamma params" for contrast, and "invalid sharpen params" for brightness and saturation (`Processor.DecodeFailureTextAsWritten`, see Findings).
- CmdResize.Errors: the record also declares a `Validate()` method with no body. The model gives it none, because the code gives it no behaviour.

## Findings

| source | as written | input that shows it | evidently intended | confidence | as-written member | corrected member |
|---|---|---|---|---|---|---|
| cmd/internal/lib/api/crop/crop.go:28-30 | the bounds guard adds X + Width and Y + Height in int64, which wraps | X = 9223372036854775807, Y = 1, Width = 1, Height = 1 on a 100x100 image: the wrapped sum is negative, so the guard passes and the crop area lies outside the image. Through the handler's JSON, where numbers are float64, the same happens with X = 9223372036854774784 and Width = 2048 | reject every crop area not inside the image | not executed | Crop.CheckAsWritten (shown by Crop.WrappedGuardAdmitsOutsideArea) | Crop.Check (used by Crop.HandleCrop; agreement without overflow in Crop.AsWrittenAgreesWithoutOverflow) |
| cmd/internal/http-server/handlers/image/processor/processor.go:176-178, 200-202, 212-214 | a payload that does not decode gives "invalid gamma params" for contrast and "invalid sharpen params" for brightness and saturation | a `contrast` action whose payload is not an object | each kind's message names its own kind, as crop, resize, blur, gamma, sharpen and convert do | not executed | Processor.DecodeFailureTextAsWritten (shown by Processor.DecodeTextAsWrittenMisnames) | Processor.DecodeFailureText (used by Processor.Render; distinctness in Processor.DecodeFailureTextIdentifiesKind) |

=== FILE: blur.dfy ===
/** Blur parameters and the blur transform (internal/lib/api/blur/blur.go). */
module Blur {
  import opened Results
  import opened Imaging
  import opened Validate

  datatype BlurParams = BlurParams(sigma: real)

  /** `required,min=0.1,max=100.0` on Sigma. */
  function Fields(p: BlurParams): seq<Field> {
    [ Field("Sigma", FloatV(p.sigma), [Required, Min(0.1), Max(100.0)]) ]
  }

  /** Sigma in 0.1..100.0, both ends included; `required` adds nothing, since 0 is
      already below the minimum. */
  predicate Valid(p: BlurParams) {
    0.1 <= p.sigma <= 100.0
  }

  function Errors(p: BlurParams): (errs: seq<FieldError>)
    ensures errs == [] <==> Valid(p)
    ensures errs != [] ==> errs == [FieldError("Sigma", FirstFailing(Fields(p)[0].tags, FloatV(p.sigma)).value)]
  {
    var fs := Fields(p);
    FieldOkThree(fs[0]);
    Struct(fs)
  }

  /** 0.1 and 100.0 pass; values beyond the range fail on the bound they cross. */
  lemma Boundaries()
    ensures Valid(BlurParams(0.1)) && Valid(BlurParams(100.0))
    ensures Errors(BlurParams(0.0)) == [FieldError("Sigma", Required)]
    ensures Errors(BlurParams(0.05)) == [FieldError("Sigma", Min(0.1))]
    ensures Errors(BlurParams(100.5)) == [FieldError("Sigma", Max(100.0))]
  {
  }

  /** `BlurImage` never fails and hands Sigma to the library unchanged. */
  function BlurImage(p: BlurParams, img: Image, lib: Library): (r: Result<Image, string>)
    ensures r.Success? && r.value == lib.blur(img, p.sigma)
  {
    Success(lib.blur(img, p.sigma))
  }
}

=== FILE: brightness.dfy ===
/** Brightness parameters and the brightness adjustment
    (cmd/internal/lib/api/brightness/brightness.go). */
module Brightness {
  import opened Results
  import opened Imaging
  import opened Validate

  datatype BrightnessParams = BrightnessParams(percentage: real)

  /** `required,min=-100,max=100` on Percentage. */
  function Fields(p: BrightnessParams): seq<Field> {
    [ Field("Percentage", FloatV(p.percentage), [Required, Min(-100.0), Max(100.0)]) ]
  }

  /** A non-zero percentage in -100..100, both ends included. */
  predicate Valid(p: BrightnessParams) {
    p.percentage != 0.0 && -100.0 <= p.percentage <= 100.0
  }

  function Errors(p: BrightnessParams): (errs: seq<FieldError>)
    ensures errs == [] <==> Valid(p)
    ensures errs != [] ==> errs == [FieldError("Percentage", FirstFailing(Fields(p)[0].tags, FloatV(p.percentage)).value)]
  {
    var fs := Fields(p);
    FieldOkThree(fs[0]);
    Struct(fs)
  }

  /** -100 and 100 pass; 0 fails on `required`, and values beyond the range fail on
      the bound they cross. */
  lemma Boundaries()
    ensures Valid(BrightnessParams(-100.0)) && Valid(BrightnessParams(100.0))
    ensures Errors(BrightnessParams(0.0)) == [FieldError("Percentage", Required)]
    ensures Errors(BrightnessParams(-100.5)) == [FieldError("Percentage", Min(-100.0))]
    ensures Errors(BrightnessParams(150.0)) == [FieldError("Percentage", Max(100.0))]
  {
  }

  /** `BrightnessImage` never fails and hands Percentage to the library unchanged. */
  function BrightnessImage(p: BrightnessParams, img: Image, lib: Library): (r: Result<Image, string>)
    ensures r.Success? && r.value == lib.brightness(img, p.percentage)
  {
    Success(lib.brightness(img, p.percentage))
  }
}

=== FILE: cmd_resize.dfy ===
/** The looser resize parameters of cmd/internal/lib/api/resize/resize.go:
    `required,gte=0` and no upper bound. */
module CmdResize {
  import opened Results
  import opened GoInt
  import opened Imaging
  import opened Validate
  import Resize

  datatype ResizeParams = ResizeParams(width: Int64, height: Int64)

  function Fields(p: ResizeParams): seq<Field> {
    [ Field("Width", IntV(p.width), [Required, Gte(0.0)]),
      Field("Height", IntV(p.height), [Required, Gte(0.0)]) ]
  }

  /** Each side is positive: `gte=0` excludes negatives and `required` excludes 0. */
  predicate Valid(p: ResizeParams) {
    1 <= p.width && 1 <= p.height
  }

  function Errors(p: ResizeParams): (errs: seq<FieldError>)
    ensures errs == [] <==> Valid(p)
  {
    var fs := Fields(p);
    FieldOkTwo(fs[0]);
    FieldOkTwo(fs[1]);
    Struct(fs)
  }

  /** `handleResize` never fails and asks the library for exactly Width x Height. */
  function HandleResize(p: ResizeParams, img: Image, lib: Library): (r: Result<Image, string>)
    ensures r.Success? && r.value == lib.resize(img, p.width, p.height)
  {
    Success(lib.resize(img, p.width, p.height))
  }

  /** Every size the bounded variant accepts, this one accepts too, and the converse
      fails just above 8000: this variant has no upper bound. */
  lemma LooserThanBounded(w: Int64, h: Int64)
    ensures Resize.Errors(Resize.ResizeParams(w, h)) == [] ==> Errors(ResizeParams(w, h)) == []
    ensures Errors(ResizeParams(Resize.MaxSide + 1, 1)) == []
    ensures Resize.Errors(Resize.ResizeParams(Resize.MaxSide + 1, 1)) != []
  {
  }
}

=== FILE: contrast.dfy ===
/** Contrast parameters and the contrast adjustment
    (cmd/internal/lib/api/contrast/contrast.go). */
module Contrast {
  import opened Results
  import opened Imaging
  import opened Validate

  datatype ContrastParams = ContrastParams(percentage: real)

  /** `required,min=-100,max=100` on Percentage. */
  function Fields(p: ContrastParams): seq<Field> {
    [ Field("Percentage", FloatV(p.percentage), [Required, Min(-100.0), Max(100.0)]) ]
  }

  /** A non-zero percentage in -100..100, both ends included. */
  predicate Valid(p: ContrastParams) {
    p.percentage != 0.0 && -100.0 <= p.percentage <= 100.0
  }

  function Errors(p: ContrastParams): (errs: seq<FieldError>)
    ensures errs == [] <==> Valid(p)
    ensures errs != [] ==> errs == [FieldError("Percentage", FirstFailing(Fields(p)[0].tags, FloatV(p.percentage)).value)]
  {
    var fs := Fields(p);
    FieldOkThree(fs[0]);
    Struct(fs)
  }

  /** -100 and 100 pass; 0 fails on `required`, and values beyond the range fail on
      the bound they cross. */
  lemma Boundaries()
    ensures Valid(ContrastParams(-100.0)) && Valid(ContrastParams(100.0))
    ensures Errors(ContrastParams(0.0)) == [FieldError("Percentage", Required)]
    ensures Errors(ContrastParams(-100.5)) == [FieldError("Percentage", Min(-100.0))]
    ensures Errors(ContrastParams(150.0)) == [FieldError("Percentage", Max(100.0))]
  {
  }

  /** `ContrastImage` never fails and hands Percentage to the library unchanged. */
  function ContrastImage(p: ContrastParams, img: Image, lib: Library): (r: Result<Image, string>)
    ensures r.Success? && r.value == lib.contrast(img, p.percentage)
  {
    Success(lib.contrast(img, p.percentage))
  }
}

=== FILE: convert.dfy ===
/** Conversion parameters (cmd/internal/lib/api/convert/convert.go): the target
    format is only a file extension; no image is involved. */
module Convert {
  import opened Results
  import opened Validate
  import Text

  datatype ConvertParams = ConvertParams(format: string)

  /** `required,lowercase,max=10` on Format. */
  function Fields(p: ConvertParams): seq<Field> {
    [ Field("Format", StrV(p.format), [Required, Lowercase, Max(10.0)]) ]
  }

  /** A non-empty format of at most 10 characters with no upper-case letter. */
  predicate Valid(p: ConvertParams) {
    p.format != "" && Text.IsLower(p.format) && |p.format| <= 10
  }

  function Errors(p: ConvertParams): (errs: seq<FieldError>)
    ensures errs == [] <==> Valid(p)
  {
    var fs := Fields(p);
    FieldOkThree(fs[0]);
    Text.LowerFixedPoint(p.format);
    Struct(fs)
  }


  /** An empty format fails on `required`, and "PNG" on `lowercase`. */
  lemma RejectsEmptyAndUpperCase()
    ensures Errors(ConvertParams("")) == [FieldError("Format", Required)]
    ensures Errors(ConvertParams("PNG")) == [FieldError("Format", Lowercase)]
  {
    assert Text.ToLower("PNG")[0] == 'p';
  }

  /** A lower-case format of 11 characters fails on `max`. */
  lemma RejectsLongFormat()
    ensures var long := seq(11, _ => 'x');
            Errors(ConvertParams(long)) == [FieldError("Format", Max(10.0))]
  {
    var long := seq(11, _ => 'x');
    Text.LowerFixedPoint(long);
    var tags := Fields(ConvertParams(long))[0].tags;
    assert Holds(tags[0], StrV(long)) && Holds(tags[1], StrV(long)) && !Holds(tags[2], StrV(long));
    assert FirstFailing(tags, StrV(long)) == Some(Max(10.0));
  }

  /** `ConvertImage` returns Format unchanged and never fails. */
  function ConvertImage(p: ConvertParams): (r: Result<string, string>)
    ensures r.Success? && r.value == p.format
  {
    Success(p.format)
  }
}

=== FILE: crop.dfy ===
/** Crop parameters, their validation and the crop itself
    (cmd/internal/lib/api/crop/crop.go). */
module Crop {
  import opened Results
  import opened GoInt
  import opened Imaging
  import opened Validate
  import Text

  datatype CropParams = CropParams(x: Int64, y: Int64, width: Int64, height: Int64)

  /** The struct tags: `required,min=0` on X and Y, `required,min=1` on Width and Height. */
  function Fields(p: CropParams): seq<Field> {
    [ Field("X", IntV(p.x), [Required, Min(0.0)]),
      Field("Y", IntV(p.y), [Required, Min(0.0)]),
      Field("Width", IntV(p.width), [Required, Min(1.0)]),
      Field("Height", IntV(p.height), [Required, Min(1.0)]) ]
  }

  /** What the tags admit: since `required` rejects 0, an offset must be at least 1
      and so must a side. */
  predicate TagsValid(p: CropParams) {
    1 <= p.x && 1 <= p.y && 1 <= p.width && 1 <= p.height
  }

  function Errors(p: CropParams): (errs: seq<FieldError>)
    ensures errs == [] <==> TagsValid(p)
    ensures |errs| <= 4
  {
    var fs := Fields(p);
    assert FieldOk(fs[0]) <==> 1 <= p.x by { FieldOkTwo(fs[0]); }
    assert FieldOk(fs[1]) <==> 1 <= p.y by { FieldOkTwo(fs[1]); }
    assert FieldOk(fs[2]) <==> 1 <= p.width by { FieldOkTwo(fs[2]); }
    assert FieldOk(fs[3]) <==> 1 <= p.height by { FieldOkTwo(fs[3]); }
    Struct(fs)
  }

  /** The crop area ends within the image it is taken from. */
  predicate WithinBounds(p: CropParams, img: Image) {
    p.x + p.width <= img.maxX && p.y + p.height <= img.maxY
  }

  datatype CropError = ValidationFailed(errs: seq<FieldError>) | ExceedsBounds

  /** `validate`: the static tags first, then the bounds of the image passed in. */
  function Check(p: CropParams, img: Image): (r: Option<CropError>)
    ensures r.None? <==> TagsValid(p) && WithinBounds(p, img)
    ensures !TagsValid(p) ==> r.Some? && r.value.ValidationFailed? && r.value.errs != []
    ensures TagsValid(p) && !WithinBounds(p, img) ==> r == Some(ExceedsBounds)
  {
    var errs := Errors(p);
    if errs != [] then Some(ValidationFailed(errs))
    else if p.x + p.width > img.maxX || p.y + p.height > img.maxY then Some(ExceedsBounds)
    else None
  }

  /** `HandleCrop`: on any failure an error and no image; otherwise the library's
      crop of exactly the rectangle (X, Y, X+Width, Y+Height), which lies inside the
      image. */
  function HandleCrop(p: CropParams, img: Image, lib: Library): (r: Result<Image, CropError>)
    ensures r.Success? <==> TagsValid(p) && WithinBounds(p, img)
    ensures r.Success? ==> r.value == lib.crop(img, Rect(p.x, p.y, p.x + p.width, p.y + p.height))
    ensures r.Success? ==> Inside(Rect(p.x, p.y, p.x + p.width, p.y + p.height), img)
    ensures r.Failure? ==> Check(p, img) == Some(r.error)
  {
    match Check(p, img)
    case Some(e) => Failure(e)
    case None => Success(lib.crop(img, MakeRect(p.x, p.y, p.x + p.width, p.y + p.height)))
  }

  const Op: string := "api.crop.Validate"

  /** The error text `HandleCrop` returns: the operation name, then which check
      failed, so the kind of failure can be read from the text. */
  function ErrorText(e: CropError): (r: string)
    ensures Text.HasPrefix(r, Op + " ")
    ensures e.ValidationFailed? <==> Text.HasPrefix(r, Op + " validation failed: ")
    ensures e.ExceedsBounds? <==> r == Op + " crop area exceeds image boundaries"
  {
    var head := Op + " validation failed: ";
    var n := |Op| + 1;
    assert head[n] == 'v' && head[..n] == Op + " ";
    match e
    case ValidationFailed(errs) =>
      var r := head + ErrorsText("CropParams", errs);
      assert r[..|head|] == head && r[..n] == head[..n] && r[n] == 'v';
      r
    case ExceedsBounds =>
      var tail := " crop area exceeds image boundaries";
      var r := Op + tail;
      assert tail[0] == ' ' && tail[1] == 'c';
      assert r[..n] == Op + [tail[0]];
      assert r[n] == tail[1];
      r
  }

  /** The guard as written in Go, where `X+Width` and `Y+Height` are 64-bit sums
      that wrap around. */
  function CheckAsWritten(p: CropParams, img: Image): (r: Option<CropError>)
    ensures r == Some(ExceedsBounds) ==> !WithinBounds(p, img)
  {
    var errs := Errors(p);
    if errs != [] then Some(ValidationFailed(errs))
    else if Add64(p.x, p.width) > img.maxX || Add64(p.y, p.height) > img.maxY then Some(ExceedsBounds)
    else None
  }

  /** The wrapping guard lets through a crop area that starts past the right edge
      of a 100x100 image: X = 2^63-1 and Width = 1 sum to -2^63. The same happens
      for X = 2^63-1024, which a JSON number carries exactly, and Width = 2048. */
  lemma WrappedGuardAdmitsOutsideArea()
    ensures var p := CropParams(MaxInt64, 1, 1, 1);
            var img := Image(100, 100);
            CheckAsWritten(p, img) == None && !WithinBounds(p, img) && Check(p, img) == Some(ExceedsBounds)
    ensures var p := CropParams(9223372036854774784, 1, 2048, 1);
            var img := Image(100, 100);
            CheckAsWritten(p, img) == None && !WithinBounds(p, img) && Check(p, img) == Some(ExceedsBounds)
  {
    var p := CropParams(MaxInt64, 1, 1, 1);
    assert Add64(p.x, p.width) == MinInt64;
    assert Errors(p) == [];
    var q := CropParams(9223372036854774784, 1, 2048, 1);
    assert Add64(q.x, q.width) == MinInt64 + 1024;
    assert Errors(q) == [];
  }

  /** Below the overflow threshold the wrapping guard and the mathematical guard agree. */
  lemma AsWrittenAgreesWithoutOverflow(p: CropParams, img: Image)
    requires p.x + p.width <= MaxInt64 && p.y + p.height <= MaxInt64
    ensures CheckAsWritten(p, img) == Check(p, img)
  {
  }
}

=== FILE: gamma.dfy ===
/** Gamma parameters and the gamma transform (internal/lib/api/gamma/gamma.go). */
module Gamma {
  import opened Results
  import opened Imaging
  import opened Validate

  datatype GammaParams = GammaParams(sigma: real)

  /** `required,min=0.1,max=100.0` on Sigma (the JSON field "sigma" carries the gamma value). */
  function Fields(p: GammaParams): seq<Field> {
    [ Field("Sigma", FloatV(p.sigma), [Required, Min(0.1), Max(100.0)]) ]
  }

  /** Sigma in 0.1..100.0, both ends included; `required` adds nothing, since 0 is
      already below the minimum. */
  predicate Valid(p: GammaParams) {
    0.1 <= p.sigma <= 100.0
  }

  function Errors(p: GammaParams): (errs: seq<FieldError>)
    ensures errs == [] <==> Valid(p)
    ensures errs != [] ==> errs == [FieldError("Sigma", FirstFailing(Fields(p)[0].tags, FloatV(p.sigma)).value)]
  {
    var fs := Fields(p);
    FieldOkThree(fs[0]);
    Struct(fs)
  }

  /** 0.1 and 100.0 pass; values beyond the range fail on the bound they cross. */
  lemma Boundaries()
    ensures Valid(GammaParams(0.1)) && Valid(GammaParams(100.0))
    ensures Errors(GammaParams(0.0)) == [FieldError("Sigma", Required)]
    ensures Errors(GammaParams(0.05)) == [FieldError("Sigma", Min(0.1))]
    ensures Errors(GammaParams(100.5)) == [FieldError("Sigma", Max(100.0))]
  {
  }

  /** `GammaImage` never fails and hands Sigma to the library unchanged. */
  function GammaImage(p: GammaParams, img: Image, lib: Library): (r: Result<Image, string>)
    ensures r.Success? && r.value == lib.gamma(img, p.sigma)
  {
    Success(lib.gamma(img, p.sigma))
  }
}

=== FILE: goint.dfy ===
/** Go's 64-bit `int`, and its wrap-around addition. */
module GoInt {

  const MinInt64: int := -0x8000_0000_0000_0000
  const MaxInt64: int := 0x7FFF_FFFF_FFFF_FFFF
  const Modulus64: int := 0x1_0000_0000_0000_0000

  /** The values a Go `int` field can hold after JSON decoding on a 64-bit platform. */
  type Int64 = x: int | MinInt64 <= x <= MaxInt64

  /** Two's-complement wrap-around of a mathematical integer into the 64-bit range. */
  function Wrap64(x: int): (r: Int64)
    ensures (r - x) % Modulus64 == 0
    ensures MinInt64 <= x <= MaxInt64 ==> r == x
  {
    var m := (x - MinInt64) % Modulus64;
    assert x - MinInt64 == ((x - MinInt64) / Modulus64) * Modulus64 + m;
    m + MinInt64
  }

  /** Go's `a + b` on two `int` values. */
  function Add64(a: Int64, b: Int64): (r: Int64)
    ensures MinInt64 <= a + b <= MaxInt64 ==> r == a + b
    ensures a + b > MaxInt64 ==> r == a + b - Modulus64
  {
    Wrap64(a + b)
  }
}

=== FILE: imaging.dfy ===
/** Images at the level the pipeline can observe them, and the pixel library's
    transforms as opaque functions. */
module Imaging {

  /** An image is known by its bounds; its minimum corner is the origin, as for
      every image the store decodes and every image the library returns. */
  datatype Image = Image(maxX: nat, maxY: nat)

  datatype Rect = Rect(minX: int, minY: int, maxX: int, maxY: int)

  function Min(a: int, b: int): int { if a <= b then a else b }
  function Max(a: int, b: int): int { if a <= b then b else a }

  /** `image.Rect`: the rectangle with corners (x0, y0) and (x1, y1), its
      coordinates swapped where needed so that min <= max. */
  function MakeRect(x0: int, y0: int, x1: int, y1: int): (r: Rect)
    ensures r.minX <= r.maxX && r.minY <= r.maxY
    ensures {r.minX, r.maxX} == {x0, x1} && {r.minY, r.maxY} == {y0, y1}
    ensures x0 <= x1 && y0 <= y1 ==> r == Rect(x0, y0, x1, y1)
  {
    Rect(Min(x0, x1), Min(y0, y1), Max(x0, x1), Max(y0, y1))
  }

  /** The rectangle lies inside the image's bounds. */
  predicate Inside(r: Rect, img: Image) {
    0 <= r.minX && 0 <= r.minY && r.maxX <= img.maxX && r.maxY <= img.maxY
  }

  /** The pixel transforms of the imaging library. Their numerics are not modelled:
      each is an arbitrary total function, and the pipeline's properties hold for
      every choice of them. */
  datatype Library = Library(
    crop: (Image, Rect) -> Image,
    resize: (Image, int, int) -> Image,
    blur: (Image, real) -> Image,
    sharpen: (Image, real) -> Image,
    gamma: (Image, real) -> Image,
    contrast: (Image, real) -> Image,
    brightness: (Image, real) -> Image,
    saturation: (Image, real) -> Image)
}

=== FILE: json.dfy ===
/** The untyped JSON value an action's `params` field holds after the request body
    has been decoded into Go's `interface{}`. */
module Json {

  datatype Json =
    | JNull
    | JBool(b: bool)
    | JNumber(n: real)
    | JString(s: string)
    | JArray(items: seq<Json>)
    | JObject(members: seq<(string, Json)>)

  /** The validator's `required` on an `interface{}` field: only a nil interface
      (JSON `null` or a missing key) fails. A non-nil interface passes whatever it
      holds, zero scalars included, because the validator treats the unwrapped value
      as if it were behind a reference. */
  predicate HasValue(j: Json) {
    !j.JNull?
  }
}

=== FILE: process.dfy ===
/** The older crop-only handler (cmd/internal/http-server/handlers/img/process/process.go):
    the same request shape, but only `crop` is dispatched, crop records are checked
    only inside `HandleCrop`, and the output keeps the source's extension. */
module Process {
  import opened Results
  import opened Json
  import opened Imaging
  import opened Validate
  import Text
  import R = Response
  import Crop
  import ImageStore
  import Processor

  datatype ImageAction = ImageAction(action: string, params: Json)

  /** `actions` is `None` when the JSON key is missing or null. */
  datatype Request = Request(actions: Option<seq<ImageAction>>, imageName: string)

  /** `Request`'s tags: `required` on Actions and `required,max=100` on ImageName.
      The tags on `ImageAction` are never reached: the validator does not descend
      into the slice without a `dive` tag. */
  function RequestErrors(req: Request): (errs: seq<FieldError>)
    ensures errs == [] <==> req.actions.Some? && req.imageName != "" && |req.imageName| <= 100
  {
    var n := if req.actions.Some? then |req.actions.value| else 0;
    var fs := [ Field("Actions", ListV(req.actions.None?, n), [Required]),
                Field("ImageName", StrV(req.imageName), [Required, Max(100.0)]) ];
    FieldOkOne(fs[0]);
    FieldOkTwo(fs[1]);
    Struct(fs)
  }

  /** Why the loop stopped, and at which action. */
  datatype Failure =
    | UndecodableCrop(index: nat)
    | UnknownAction(index: nat, action: string)
    | CropFailed(index: nat, error: Crop.CropError)

  /** One iteration: only "crop" is dispatched; its record is decoded and handed to
      `HandleCrop`, which checks the tags and the bounds itself. */
  function Step(i: nat, a: ImageAction, img: Image, decode: Json -> Option<Crop.CropParams>, lib: Library)
    : (r: Result<Image, Failure>)
    ensures r.Failure? ==> r.error.index == i
    ensures a.action != "crop" <==> r == Failure(UnknownAction(i, a.action))
    ensures a.action == "crop" && decode(a.params).None? ==> r == Failure(UndecodableCrop(i))
    ensures a.action == "crop" && decode(a.params).Some?
            && Crop.HandleCrop(decode(a.params).value, img, lib).Failure? ==>
              r == Failure(CropFailed(i, Crop.HandleCrop(decode(a.params).value, img, lib).error))
    ensures r.Success? <==>
              a.action == "crop" && decode(a.params).Some?
              && Crop.TagsValid(decode(a.params).value) && Crop.WithinBounds(decode(a.params).value, img)
    ensures r.Success? ==>
              var p := decode(a.params).value;
              r.value == lib.crop(img, Rect(p.x, p.y, p.x + p.width, p.y + p.height))
  {
    if a.action == "crop" then
      match decode(a.params)
      case None => Failure(UndecodableCrop(i))
      case Some(p) =>
        match Crop.HandleCrop(p, img, lib)
        case Failure(e) => Failure(CropFailed(i, e))
        case Success(out) => Success(out)
    else Failure(UnknownAction(i, a.action))
  }

  function StepWith(decode: Json -> Option<Crop.CropParams>, lib: Library): (nat, ImageAction, Image) -> Result<Image, Failure> {
    (i: nat, a: ImageAction, img: Image) => Step(i, a, img, decode, lib)
  }

  /** The loop over the actions, first failure ending it: a failure names an action
      of the request, and is what that action's own step reported on the image the
      actions before it produced. */
  function Run(actions: seq<ImageAction>, img: Image, decode: Json -> Option<Crop.CropParams>, lib: Library)
    : (r: Result<Image, Failure>)
    ensures r.Failure? ==> r.error.index < |actions|
    ensures r.Failure? ==>
              Processor.Fold(StepWith(decode, lib), actions[..r.error.index], img, 0).Success?
              && r == Step(r.error.index, actions[r.error.index],
                           Processor.Fold(StepWith(decode, lib), actions[..r.error.index], img, 0).value, decode, lib)
  {
    RunFailsAt(actions, img, decode, lib);
    Processor.Fold(StepWith(decode, lib), actions, img, 0)
  }

  lemma RunFailsAt(actions: seq<ImageAction>, img: Image, decode: Json -> Option<Crop.CropParams>, lib: Library)
    ensures var r := Processor.Fold(StepWith(decode, lib), actions, img, 0);
            r.Failure? ==>
              r.error.index < |actions|
              && Processor.Fold(StepWith(decode, lib), actions[..r.error.index], img, 0).Success?
              && r == Step(r.error.index, actions[r.error.index],
                           Processor.Fold(StepWith(decode, lib), actions[..r.error.index], img, 0).value, decode, lib)
  {
    if Processor.Fold(StepWith(decode, lib), actions, img, 0).Failure? {
      var k := Processor.FoldFailsAt(StepWith(decode, lib), actions, img, 0);
      var mid := Processor.Fold(StepWith(decode, lib), actions[..k], img, 0).value;
      assert StepWith(decode, lib)(k, actions[k], mid) == Step(k, actions[k], mid, decode, lib);
    }
  }

  /** A successful loop was a chain of crops, each landing inside the image before it. */
  lemma {:induction false} SuccessMeansAllCrops(actions: seq<ImageAction>, img: Image, decode: Json -> Option<Crop.CropParams>, lib: Library, from: nat)
    requires Processor.Fold(StepWith(decode, lib), actions, img, from).Success?
    ensures forall j | 0 <= j < |actions| :: actions[j].action == "crop" && decode(actions[j].params).Some?
    decreases |actions|
  {
    if |actions| > 0 {
      var first := Step(from, actions[0], img, decode, lib);
      assert StepWith(decode, lib)(from, actions[0], img) == first;
      SuccessMeansAllCrops(actions[1..], first.value, decode, lib, from + 1);
      assert forall j | 1 <= j < |actions| :: actions[j] == actions[1..][j - 1];
    }
  }

  /** The first action that is not a crop stops the loop with its name, provided
      the crops before it succeeded. */
  lemma FirstNonCropStops(actions: seq<ImageAction>, k: nat, img: Image, decode: Json -> Option<Crop.CropParams>, lib: Library)
    requires k < |actions| && actions[k].action != "crop"
    requires Run(actions[..k], img, decode, lib).Success?
    ensures Run(actions, img, decode, lib) == Failure(UnknownAction(k, actions[k].action))
  {
    var step := StepWith(decode, lib);
    assert actions == actions[..k] + actions[k..];
    Processor.FoldAppend(step, actions[..k], actions[k..], img, 0);
    var mid := Run(actions[..k], img, decode, lib).value;
    assert actions[k..][0] == actions[k];
    assert step(k, actions[k], mid) == Failure(UnknownAction(k, actions[k].action));
  }

  const UnknownPrefix: string := "unknown action: "
  const FailedPrefix: string := "failed to perform action crop: "

  /** The response written for a failed action. */
  function Render(f: Failure): (resp: R.Response)
    ensures resp.status == R.StatusError
    ensures f.UndecodableCrop? ==> resp.error == "invalid crop params"
    ensures f.UnknownAction? ==> resp.error == UnknownPrefix + f.action
    ensures f.CropFailed? ==> resp.error == FailedPrefix + Crop.ErrorText(f.error)
  {
    match f
    case UndecodableCrop(_) => R.Error("invalid crop params")
    case UnknownAction(_, action) => R.Error(UnknownPrefix + action)
    case CropFailed(_, e) => R.Error(FailedPrefix + Crop.ErrorText(e))
  }

  /** The three failures never read alike, and the message gives back the unknown
      action's name and the crop error's own text. */
  lemma RenderReadBack(f: Failure, g: Failure)
    ensures f.UnknownAction? ==> Render(f).error[|UnknownPrefix|..] == f.action
    ensures f.CropFailed? ==> Render(f).error[|FailedPrefix|..] == Crop.ErrorText(f.error)
    ensures f.UndecodableCrop? && !g.UndecodableCrop? ==> Render(f) != Render(g)
    ensures f.UnknownAction? && g.CropFailed? ==> Render(f) != Render(g)
  {
    if f.UnknownAction? {
      assert Render(f).error[..2] == (UnknownPrefix + f.action)[..2] == "un";
    }
    if f.UndecodableCrop? {
      assert Render(f).error[..2] == "in";
    }
    if g.UnknownAction? {
      assert Render(g).error[..2] == (UnknownPrefix + g.action)[..2] == "un";
    }
    if g.CropFailed? {
      assert Render(g).error[..2] == (FailedPrefix + Crop.ErrorText(g.error))[..2] == "fa";
    }
  }

  /** The request body as `render.DecodeJSON` left it. */
  datatype Body = EmptyBody | MalformedBody | Decoded(request: Request)

  /** The older `ImageProcessor` interface: no name generator, the package's own
      `GenerateName` is called directly. */
  datatype Store = Store(
    findImage: string -> Result<string, string>,
    loadImage: string -> Result<Image, string>,
    saveImage: (Image, string) -> Result<string, string>)

  datatype Call = FindImage(name: string) | LoadImage(name: string) | SaveImage(image: Image, name: string)

  datatype Reply = Reply(response: R.Response, imageUrl: Option<string>, calls: seq<Call>)

  /** The output name: `GenerateName("proc", <lower-cased extension of the found path>)`,
      with `now` standing for the clock. */
  function OutputName(path: string, now: ImageStore.DateTime): (r: Result<string, string>)
    ensures r.Success? <==> Text.Ext(path) != ""
    ensures r.Success? ==> Text.HasPrefix(r.value, "proc_") && Text.HasSuffix(r.value, Text.ToLower(Text.Ext(path)))
  {
    var ext := Text.ToLower(Text.Ext(path));
    assert ext != "" ==> ext[0] == '.' by {
      if ext != "" {
        assert ext[0] == Text.LowerChar(Text.Ext(path)[0]);
      }
    }
    assert ext != "" ==> Text.HasPrefix(ext, ".") by {
      if ext != "" {
        assert ext[..1] == [ext[0]];
      }
    }
    ImageStore.GenerateName("proc", ext, now)
  }

  /** Naming and saving the cropped image; the URL is returned only when both
      succeed. */
  function Finish(loaded: seq<Call>, path: string, out: Image, store: Store, now: ImageStore.DateTime): (reply: Reply)
    ensures |reply.calls| == |loaded| || |reply.calls| == |loaded| + 1
    ensures reply.calls[..|loaded|] == loaded
    ensures |reply.calls| == |loaded| + 1 <==> OutputName(path, now).Success?
    ensures |reply.calls| == |loaded| + 1 ==> reply.calls[|loaded|] == SaveImage(out, OutputName(path, now).value)
    ensures reply.response.status == R.StatusOK <==> reply.imageUrl.Some?
    ensures reply.response.status == R.StatusOK <==>
              OutputName(path, now).Success? && store.saveImage(out, OutputName(path, now).value).Success?
    ensures reply.response.status == R.StatusOK ==>
              |reply.calls| == |loaded| + 1 && reply.response == R.OK()
              && store.saveImage(out, OutputName(path, now).value).Success?
              && reply.imageUrl == Some(store.saveImage(out, OutputName(path, now).value).value)
  {
    match OutputName(path, now)
    case Failure(_) => Reply(R.Error("failed to generate name"), None, loaded)
    case Success(imgName) =>
      var saving := loaded + [SaveImage(out, imgName)];
      match store.saveImage(out, imgName)
      case Failure(_) => Reply(R.Error("failed to save image"), None, saving)
      case Success(url) => Reply(R.OK(), Some(url), saving)
  }

  /** Everything after validation: find, load, crop, name and save. */
  function Serve(req: Request, store: Store, decode: Json -> Option<Crop.CropParams>, lib: Library,
                 now: ImageStore.DateTime): (reply: Reply)
    requires RequestErrors(req) == []
    ensures |reply.calls| >= 1 && reply.calls[0] == FindImage(req.imageName)
    ensures store.findImage(req.imageName).Failure? ==>
              reply == Reply(R.Error("failed to find image"), None, [FindImage(req.imageName)])
    ensures store.findImage(req.imageName).Success? && store.loadImage(req.imageName).Failure? ==>
              reply == Reply(R.Error("failed to load image"), None, [FindImage(req.imageName), LoadImage(req.imageName)])
    ensures store.findImage(req.imageName).Success? && store.loadImage(req.imageName).Success?
            && Run(req.actions.value, store.loadImage(req.imageName).value, decode, lib).Failure? ==>
              reply == Reply(Render(Run(req.actions.value, store.loadImage(req.imageName).value, decode, lib).error),
                             None, [FindImage(req.imageName), LoadImage(req.imageName)])
    ensures |reply.calls| == 3 ==>
              && store.findImage(req.imageName).Success?
              && store.loadImage(req.imageName).Success?
              && Run(req.actions.value, store.loadImage(req.imageName).value, decode, lib).Success?
              && reply == Finish([FindImage(req.imageName), LoadImage(req.imageName)],
                                 store.findImage(req.imageName).value,
                                 Run(req.actions.value, store.loadImage(req.imageName).value, decode, lib).value,
                                 store, now)
    ensures store.findImage(req.imageName).Success? && store.loadImage(req.imageName).Success?
            && Run(req.actions.value, store.loadImage(req.imageName).value, decode, lib).Success? ==>
              reply == Finish([FindImage(req.imageName), LoadImage(req.imageName)],
                              store.findImage(req.imageName).value,
                              Run(req.actions.value, store.loadImage(req.imageName).value, decode, lib).value,
                              store, now)
    ensures |reply.calls| <= 3
  {
    var name := req.imageName;
    match store.findImage(name)
    case Failure(_) => Reply(R.Error("failed to find image"), None, [FindImage(name)])
    case Success(path) =>
      match store.loadImage(name)
      case Failure(_) => Reply(R.Error("failed to load image"), None, [FindImage(name), LoadImage(name)])
      case Success(img) =>
        var loaded := [FindImage(name), LoadImage(name)];
        match Run(req.actions.value, img, decode, lib)
        case Failure(f) => Reply(Render(f), None, loaded)
        case Success(out) => Finish(loaded, path, out, store, now)
  }

  /** The handler returned by `New`. */
  function Handle(body: Body, store: Store, decode: Json -> Option<Crop.CropParams>, lib: Library,
                  now: ImageStore.DateTime): (reply: Reply)
    ensures body.EmptyBody? ==> reply == Reply(R.Error("empty request"), None, [])
    ensures body.MalformedBody? ==> reply == Reply(R.Error("failed to decode request"), None, [])
    ensures body.Decoded? && RequestErrors(body.request) != [] ==>
              reply == Reply(R.ValidationError(RequestErrors(body.request)), None, [])
    ensures reply.calls != [] <==> body.Decoded? && RequestErrors(body.request) == []
    ensures reply.calls != [] ==> reply == Serve(body.request, store, decode, lib, now)
  {
    match body
    case EmptyBody => Reply(R.Error("empty request"), None, [])
    case MalformedBody => Reply(R.Error("failed to decode request"), None, [])
    case Decoded(req) =>
      var checked := R.Validation(RequestErrors(req));
      if !checked.ok then Reply(checked.written.value, None, [])
      else Serve(req, store, decode, lib, now)
  }

  /** The saved file keeps the extension of the image it came from, lower-cased and
      with its leading '.', so crops never change the container format. */
  lemma OutputKeepsExtension(path: string, now: ImageStore.DateTime)
    requires Text.Ext(path) != ""
    ensures OutputName(path, now).Success?
    ensures Text.Ext(OutputName(path, now).value) == Text.ToLower(Text.Ext(path))
  {
    var e := Text.ToLower(Text.Ext(path));
    var ext := Text.Ext(path);
    assert e[0] == '.';
    assert ImageStore.NormaliseExt(e) == e;
    assert forall i | 1 <= i < |e| :: e[i] == Text.LowerChar(ext[i]) && ext[i] == ext[1..][i - 1];
    ImageStore.GeneratedNameExtension("proc", e, now);
  }

  /** A path with no extension cannot be named: the request fails after the loop
      with "failed to generate name" and nothing is saved. */
  lemma NoExtensionIsNotSaved(path: string, now: ImageStore.DateTime)
    requires Text.Ext(path) == ""
    ensures OutputName(path, now) == Failure(ImageStore.NameError)
  {
  }
}

=== FILE: processor.dfy ===
/** The multi-action handler (cmd/internal/http-server/handlers/image/processor/processor.go):
    validate the request, find and load the image, run every action in order on the
    current image and extension, stop at the first failure, and only then name and
    save the result. */
module Processor {
  import opened Results
  import opened Json
  import opened Imaging
  import opened Validate
  import Text
  import R = Response
  import Crop
  import Resize
  import Convert
  import Blur
  import Gamma
  import Contrast
  import Sharpen
  import Brightness
  import Saturation

  // ---------------------------------------------------------------- registry

  datatype Kind =
    | CropAction | ResizeAction | ConvertAction | BlurAction | GammaAction
    | ContrastAction | SharpenAction | BrightnessAction | SaturationAction

  /** The action names the switch matches. */
  function Name(k: Kind): string {
    match k
    case CropAction => "crop"
    case ResizeAction => "resize"
    case ConvertAction => "convert"
    case BlurAction => "blur"
    case GammaAction => "gamma"
    case ContrastAction => "contrast"
    case SharpenAction => "sharpen"
    case BrightnessAction => "brightness"
    case SaturationAction => "saturation"
  }

  /** The switch on `action.Action`: an exact, case-sensitive match. */
  function Lookup(action: string): (r: Option<Kind>)
    ensures r.Some? ==> Name(r.value) == action
    ensures r.None? ==> forall k: Kind :: Name(k) != action
  {
    if action == "crop" then Some(CropAction)
    else if action == "resize" then Some(ResizeAction)
    else if action == "convert" then Some(ConvertAction)
    else if action == "blur" then Some(BlurAction)
    else if action == "gamma" then Some(GammaAction)
    else if action == "contrast" then Some(ContrastAction)
    else if action == "sharpen" then Some(SharpenAction)
    else if action == "brightness" then Some(BrightnessAction)
    else if action == "saturation" then Some(SaturationAction)
    else None
  }

  /** Dispatch names exactly one kind per name, and no other string. */
  lemma LookupExact(action: string, k: Kind)
    ensures Lookup(action) == Some(k) <==> action == Name(k)
  {
  }

  // ---------------------------------------------------------------- request shapes

  datatype ImageAction = ImageAction(action: string, params: Json)

  /** `actions` is `None` when the JSON key is missing or null (a nil slice). */
  datatype Request = Request(actions: Option<seq<ImageAction>>, imageName: string)

  /** `ImageAction`'s tags: `required,max=10` on Action, `required` on Params. */
  function ActionErrors(a: ImageAction): (errs: seq<FieldError>)
    ensures errs == [] <==> a.action != "" && |a.action| <= 10 && HasValue(a.params)
  {
    var fs := [ Field("Action", StrV(a.action), [Required, Max(10.0)]),
                Field("Params", AnyV(a.params), [Required]) ];
    FieldOkTwo(fs[0]);
    FieldOkOne(fs[1]);
    Struct(fs)
  }

  /** `Request`'s tags: `required,min=1` on Actions, `required,max=100` on ImageName. */
  function RequestErrors(req: Request): (errs: seq<FieldError>)
    ensures errs == [] <==>
              req.actions.Some? && |req.actions.value| >= 1 && req.imageName != "" && |req.imageName| <= 100
  {
    var n := if req.actions.Some? then |req.actions.value| else 0;
    var fs := [ Field("Actions", ListV(req.actions.None?, n), [Required, Min(1.0)]),
                Field("ImageName", StrV(req.imageName), [Required, Max(100.0)]) ];
    FieldOkTwo(fs[0]);
    FieldOkTwo(fs[1]);
    Struct(fs)
  }

  // ---------------------------------------------------------------- parameters

  /** One typed parameter record per kind. */
  datatype Params =
    | CropArgs(crop: Crop.CropParams)
    | ResizeArgs(resize: Resize.ResizeParams)
    | ConvertArgs(convert: Convert.ConvertParams)
    | BlurArgs(blur: Blur.BlurParams)
    | GammaArgs(gamma: Gamma.GammaParams)
    | ContrastArgs(contrast: Contrast.ContrastParams)
    | SharpenArgs(sharpen: Sharpen.SharpenParams)
    | BrightnessArgs(brightness: Brightness.BrightnessParams)
    | SaturationArgs(saturation: Saturation.SaturationParams)

  function KindOf(p: Params): Kind {
    match p
    case CropArgs(_) => CropAction
    case ResizeArgs(_) => ResizeAction
    case ConvertArgs(_) => ConvertAction
    case BlurArgs(_) => BlurAction
    case GammaArgs(_) => GammaAction
    case ContrastArgs(_) => ContrastAction
    case SharpenArgs(_) => SharpenAction
    case BrightnessArgs(_) => BrightnessAction
    case SaturationArgs(_) => SaturationAction
  }

  /** `decodeParams` for each record type: re-encoding the payload and decoding it
      into the record either yields a record or fails. The JSON codec itself is not
      modelled; any decoder may stand here. */
  datatype Codec = Codec(
    crop: Json -> Option<Crop.CropParams>,
    resize: Json -> Option<Resize.ResizeParams>,
    convert: Json -> Option<Convert.ConvertParams>,
    blur: Json -> Option<Blur.BlurParams>,
    gamma: Json -> Option<Gamma.GammaParams>,
    contrast: Json -> Option<Contrast.ContrastParams>,
    sharpen: Json -> Option<Sharpen.SharpenParams>,
    brightness: Json -> Option<Brightness.BrightnessParams>,
    saturation: Json -> Option<Saturation.SaturationParams>)

  /** Decodes a payload into the record type of the given kind. */
  function Decode(k: Kind, payload: Json, codec: Codec): (r: Option<Params>)
    ensures r.Some? ==> KindOf(r.value) == k
  {
    match k
    case CropAction => (match codec.crop(payload) case Some(p) => Some(CropArgs(p)) case None => None)
    case ResizeAction => (match codec.resize(payload) case Some(p) => Some(ResizeArgs(p)) case None => None)
    case ConvertAction => (match codec.convert(payload) case Some(p) => Some(ConvertArgs(p)) case None => None)
    case BlurAction => (match codec.blur(payload) case Some(p) => Some(BlurArgs(p)) case None => None)
    case GammaAction => (match codec.gamma(payload) case Some(p) => Some(GammaArgs(p)) case None => None)
    case ContrastAction => (match codec.contrast(payload) case Some(p) => Some(ContrastArgs(p)) case None => None)
    case SharpenAction => (match codec.sharpen(payload) case Some(p) => Some(SharpenArgs(p)) case None => None)
    case BrightnessAction => (match codec.brightness(payload) case Some(p) => Some(BrightnessArgs(p)) case None => None)
    case SaturationAction => (match codec.saturation(payload) case Some(p) => Some(SaturationArgs(p)) case None => None)
  }

  /** The static rules of each record, as the modules state them. */
  predicate ParamsValid(p: Params) {
    match p
    case CropArgs(c) => Crop.TagsValid(c)
    case ResizeArgs(r) => Resize.Valid(r)
    case ConvertArgs(c) => Convert.Valid(c)
    case BlurArgs(b) => Blur.Valid(b)
    case GammaArgs(g) => Gamma.Valid(g)
    case ContrastArgs(c) => Contrast.Valid(c)
    case SharpenArgs(s) => Sharpen.Valid(s)
    case BrightnessArgs(b) => Brightness.Valid(b)
    case SaturationArgs(s) => Saturation.Valid(s)
  }

  /** `response.Validation` on a decoded record. */
  function ParamErrors(p: Params): (errs: seq<FieldError>)
    ensures errs == [] <==> ParamsValid(p)
  {
    match p
    case CropArgs(c) => Crop.Errors(c)
    case ResizeArgs(r) => Resize.Errors(r)
    case ConvertArgs(c) => Convert.Errors(c)
    case BlurArgs(b) => Blur.Errors(b)
    case GammaArgs(g) => Gamma.Errors(g)
    case ContrastArgs(c) => Contrast.Errors(c)
    case SharpenArgs(s) => Sharpen.Errors(s)
    case BrightnessArgs(b) => Brightness.Errors(b)
    case SaturationArgs(s) => Saturation.Errors(s)
  }

  // ---------------------------------------------------------------- applying one action

  /** What the handler threads from one action to the next: the current image and
      the pending file extension. */
  datatype State = State(image: Image, ext: string)

  /** The library call each kind stands for; a conversion involves no image. */
  function Transform(p: Params, img: Image, lib: Library): Image {
    match p
    case CropArgs(c) => lib.crop(img, Rect(c.x, c.y, c.x + c.width, c.y + c.height))
    case ResizeArgs(r) => lib.resize(img, r.width, r.height)
    case ConvertArgs(_) => img
    case BlurArgs(b) => lib.blur(img, b.sigma)
    case GammaArgs(g) => lib.gamma(img, g.sigma)
    case ContrastArgs(c) => lib.contrast(img, c.percentage)
    case SharpenArgs(s) => lib.sharpen(img, s.sigma)
    case BrightnessArgs(b) => lib.brightness(img, b.percentage)
    case SaturationArgs(s) => lib.saturation(img, s.percentage)
  }

  function Replace(st: State, r: Result<Image, string>): Result<State, string> {
    match r
    case Success(img) => Success(st.(image := img))
    case Failure(e) => Failure(e)
  }

  /** The switch's apply calls: `convert` replaces only the extension; every other
      kind replaces the image with its transform's output; only a crop can fail,
      and only against the current image. */
  function Apply(p: Params, st: State, lib: Library): (r: Result<State, string>)
    ensures p.ConvertArgs? ==> r.Success? && r.value.image == st.image && r.value.ext == p.convert.format
    ensures !p.ConvertArgs? && r.Success? ==> r.value == State(Transform(p, st.image, lib), st.ext)
    ensures r.Failure? <==> p.CropArgs? && !(Crop.TagsValid(p.crop) && Crop.WithinBounds(p.crop, st.image))
  {
    match p
    case CropArgs(c) =>
      (match Crop.HandleCrop(c, st.image, lib)
       case Success(img) => Success(st.(image := img))
       case Failure(e) => Failure(Crop.ErrorText(e)))
    case ResizeArgs(r) => Replace(st, Resize.ResizeImage(r, st.image, lib))
    case ConvertArgs(c) =>
      (match Convert.ConvertImage(c)
       case Success(f) => Success(st.(ext := f))
       case Failure(e) => Failure(e))
    case BlurArgs(b) => Replace(st, Blur.BlurImage(b, st.image, lib))
    case GammaArgs(g) => Replace(st, Gamma.GammaImage(g, st.image, lib))
    case ContrastArgs(c) => Replace(st, Contrast.ContrastImage(c, st.image, lib))
    case SharpenArgs(s) => Replace(st, Sharpen.SharpenImage(s, st.image, lib))
    case BrightnessArgs(b) => Replace(st, Brightness.BrightnessImage(b, st.image, lib))
    case SaturationArgs(s) => Replace(st, Saturation.SaturationImage(s, st.image, lib))
  }

  /** Why a request's pipeline stopped, and at which action. */
  datatype Failure =
    | InvalidAction(index: nat, errors: seq<FieldError>)
    | UnknownAction(index: nat, action: string)
    | UndecodableParams(index: nat, kind: Kind)
    | InvalidParams(index: nat, kind: Kind, errors: seq<FieldError>)
    | ActionFailed(index: nat, kind: Kind, cause: string)

  /** The record an action's payload decodes to, when its name is a known kind. */
  function Parsed(a: ImageAction, codec: Codec): Option<Params> {
    match Lookup(a.action)
    case None => None
    case Some(k) => Decode(k, a.params, codec)
  }

  /** An action whose descriptor is valid, whose kind is known, and whose payload
      decodes to a record that passes its static rules. */
  predicate Accepted(a: ImageAction, codec: Codec) {
    ActionErrors(a) == [] && Parsed(a, codec).Some? && ParamsValid(Parsed(a, codec).value)
  }

  /** One iteration of the loop: validate the descriptor, dispatch on the name,
      decode, validate the record, apply. */
  function Step(i: nat, a: ImageAction, st: State, codec: Codec, lib: Library): (r: Result<State, Failure>)
    ensures r.Failure? ==> r.error.index == i
    ensures ActionErrors(a) != [] ==> r == Failure(InvalidAction(i, ActionErrors(a)))
    ensures ActionErrors(a) == [] && Lookup(a.action).None? ==> r == Failure(UnknownAction(i, a.action))
    ensures ActionErrors(a) == [] && Lookup(a.action).Some? && Decode(Lookup(a.action).value, a.params, codec).None? ==>
              r == Failure(UndecodableParams(i, Lookup(a.action).value))
    ensures r.Success? ==> Accepted(a, codec)
    ensures r.Failure? && r.error.ActionFailed? ==>
              Accepted(a, codec) && r.error.kind == CropAction && Parsed(a, codec).value.CropArgs?
              && !Crop.WithinBounds(Parsed(a, codec).value.crop, st.image)
    ensures r.Success? && a.action == Name(ConvertAction) ==>
              r.value.image == st.image && r.value.ext == Parsed(a, codec).value.convert.format
    ensures r.Success? && a.action != Name(ConvertAction) ==>
              r.value == State(Transform(Parsed(a, codec).value, st.image, lib), st.ext)
  {
    var errs := ActionErrors(a);
    if errs != [] then Failure(InvalidAction(i, errs))
    else
      match Lookup(a.action)
      case None => Failure(UnknownAction(i, a.action))
      case Some(k) =>
        match Decode(k, a.params, codec)
        case None => Failure(UndecodableParams(i, k))
        case Some(p) =>
          var perrs := ParamErrors(p);
          if perrs != [] then Failure(InvalidParams(i, k, perrs))
          else
            match Apply(p, st, lib)
            case Failure(e) => Failure(ActionFailed(i, k, e))
            case Success(next) => Success(next)
  }

  /** An action named after a kind, with a payload present, passes its descriptor
      tags and is decoded as that kind. */
  lemma KnownAction(a: ImageAction, codec: Codec, k: Kind)
    requires a.action == Name(k) && HasValue(a.params)
    ensures ActionErrors(a) == [] && Parsed(a, codec) == Decode(k, a.params, codec)
  {
    LookupExact(a.action, k);
  }

  /** Once the descriptor is valid and the payload decodes, the step is decided by
      the record: its static rules first, then its transform. */
  lemma StepOnDecoded(i: nat, a: ImageAction, st: State, codec: Codec, lib: Library, p: Params)
    requires ActionErrors(a) == [] && Parsed(a, codec) == Some(p)
    ensures !ParamsValid(p) ==> Step(i, a, st, codec, lib) == Failure(InvalidParams(i, KindOf(p), ParamErrors(p)))
    ensures ParamsValid(p) && Apply(p, st, lib).Failure? ==>
              Step(i, a, st, codec, lib) == Failure(ActionFailed(i, KindOf(p), Apply(p, st, lib).error))
    ensures ParamsValid(p) && Apply(p, st, lib).Success? ==>
              Step(i, a, st, codec, lib) == Success(Apply(p, st, lib).value)
  {
  }

  // ---------------------------------------------------------------- the loop

  /** A loop over `xs` that numbers elements from `from`, threads a state through
      `step`, and stops at the first failure. */
  function Fold<A, S, F>(step: (nat, A, S) -> Result<S, F>, xs: seq<A>, s: S, from: nat): Result<S, F>
    decreases |xs|
  {
    if |xs| == 0 then Success(s)
    else
      match step(from, xs[0], s)
      case Failure(f) => Failure(f)
      case Success(next) => Fold(step, xs[1..], next, from + 1)
  }

  /** Folding a concatenation folds the first part, then the second from where the
      first left off. */
  lemma {:induction false} FoldAppend<A, S, F>(step: (nat, A, S) -> Result<S, F>, a: seq<A>, b: seq<A>, s: S, from: nat)
    ensures Fold(step, a + b, s, from) ==
              match Fold(step, a, s, from)
              case Failure(f) => Failure(f)
              case Success(mid) => Fold(step, b, mid, from + |a|)
    decreases |a|
  {
    if |a| == 0 {
      assert a + b == b;
    } else {
      assert (a + b)[0] == a[0];
      assert (a + b)[1..] == a[1..] + b;
      match step(from, a[0], s)
      case Failure(f) =>
      case Success(next) =>
        FoldAppend(step, a[1..], b, next, from + 1);
    }
  }

  /** A failing fold failed at some position `k`: the elements before it all
      succeeded, and the step at `k` produced the failure. */
  lemma {:induction false} FoldFailsAt<A, S, F>(step: (nat, A, S) -> Result<S, F>, xs: seq<A>, s: S, from: nat) returns (k: nat)
    requires Fold(step, xs, s, from).Failure?
    ensures k < |xs| && Fold(step, xs[..k], s, from).Success?
    ensures step(from + k, xs[k], Fold(step, xs[..k], s, from).value) == Fold(step, xs, s, from)
    decreases |xs|
  {
    assert xs[..0] == [];
    match step(from, xs[0], s)
    case Failure(f) =>
      k := 0;
    case Success(next) =>
      var j := FoldFailsAt(step, xs[1..], next, from + 1);
      k := j + 1;
      assert xs[..k][0] == xs[0];
      assert xs[..k][1..] == xs[1..][..j];
      assert xs[k] == xs[1..][j];
  }

  /** The handler's per-action step, for a fixed codec and library. */
  function StepWith(codec: Codec, lib: Library): (nat, ImageAction, State) -> Result<State, Failure> {
    (i: nat, a: ImageAction, st: State) => Step(i, a, st, codec, lib)
  }

  /** The loop over `req.Actions`, numbering actions from `from`: each action runs
      on the state the previous one left, and the first failure ends the loop. */
  function Run(actions: seq<ImageAction>, st: State, codec: Codec, lib: Library, from: nat): (r: Result<State, Failure>)
    ensures r.Failure? ==> from <= r.error.index < from + |actions|
  {
    FoldIndex(actions, st, codec, lib, from);
    Fold(StepWith(codec, lib), actions, st, from)
  }

  lemma FoldIndex(actions: seq<ImageAction>, st: State, codec: Codec, lib: Library, from: nat)
    ensures var r := Fold(StepWith(codec, lib), actions, st, from);
            r.Failure? ==> from <= r.error.index < from + |actions|
  {
    if Fold(StepWith(codec, lib), actions, st, from).Failure? {
      var k := FoldFailsAt(StepWith(codec, lib), actions, st, from);
      var mid := Fold(StepWith(codec, lib), actions[..k], st, from).value;
      assert StepWith(codec, lib)(from + k, actions[k], mid) == Step(from + k, actions[k], mid, codec, lib);
    }
  }

  /** One turn of the loop: the first action runs, and the rest follow only if it
      succeeds. */
  lemma RunCons(actions: seq<ImageAction>, st: State, codec: Codec, lib: Library, from: nat)
    requires |actions| > 0
    ensures Run(actions, st, codec, lib, from) ==
              match Step(from, actions[0], st, codec, lib)
              case Failure(f) => Failure(f)
              case Success(next) => Run(actions[1..], next, codec, lib, from + 1)
  {
    assert StepWith(codec, lib)(from, actions[0], st) == Step(from, actions[0], st, codec, lib);
  }

  /** Running a concatenation runs the first part, then the second from where the
      first left off. */
  lemma RunAppend(a: seq<ImageAction>, b: seq<ImageAction>, st: State, codec: Codec, lib: Library, from: nat)
    ensures Run(a + b, st, codec, lib, from) ==
              match Run(a, st, codec, lib, from)
              case Failure(f) => Failure(f)
              case Success(mid) => Run(b, mid, codec, lib, from + |a|)
  {
    FoldAppend(StepWith(codec, lib), a, b, st, from);
  }

  /** A loop that succeeds accepted every action: none was skipped, and no action
      that fails validation reaches a transform. */
  lemma {:induction false} SuccessAcceptedAll(actions: seq<ImageAction>, st: State, codec: Codec, lib: Library, from: nat)
    requires Run(actions, st, codec, lib, from).Success?
    ensures forall j | 0 <= j < |actions| :: Accepted(actions[j], codec)
    decreases |actions|
  {
    if |actions| > 0 {
      RunCons(actions, st, codec, lib, from);
      var next := Step(from, actions[0], st, codec, lib).value;
      SuccessAcceptedAll(actions[1..], next, codec, lib, from + 1);
      assert forall j | 1 <= j < |actions| :: actions[j] == actions[1..][j - 1];
    }
  }

  /** The pending extension stays lower-case: the loaded one is lower-cased, and a
      conversion's format must be lower-case to pass validation. */
  lemma {:induction false} ExtensionStaysLowerCase(actions: seq<ImageAction>, st: State, codec: Codec, lib: Library, from: nat)
    requires Text.IsLower(st.ext)
    requires Run(actions, st, codec, lib, from).Success?
    ensures Text.IsLower(Run(actions, st, codec, lib, from).value.ext)
    decreases |actions|
  {
    if |actions| > 0 {
      RunCons(actions, st, codec, lib, from);
      var next := Step(from, actions[0], st, codec, lib).value;
      ExtensionStaysLowerCase(actions[1..], next, codec, lib, from + 1);
    }
  }

  /** Once the loop fails, actions appended after the failing ones change nothing:
      they never run. */
  lemma LaterActionsNeverRun(actions: seq<ImageAction>, rest: seq<ImageAction>, st: State, codec: Codec, lib: Library)
    requires Run(actions, st, codec, lib, 0).Failure?
    ensures Run(actions + rest, st, codec, lib, 0) == Run(actions, st, codec, lib, 0)
  {
    RunAppend(actions, rest, st, codec, lib, 0);
  }

  /** The reported failure is the first one: every action before it succeeded, and
      the failing action, run on the state they left, fails in exactly that way. */
  lemma FailureIsFirst(actions: seq<ImageAction>, st: State, codec: Codec, lib: Library)
    requires Run(actions, st, codec, lib, 0).Failure?
    ensures var f := Run(actions, st, codec, lib, 0).error;
            var k := f.index;
            k < |actions| && Run(actions[..k], st, codec, lib, 0).Success?
            && Step(k, actions[k], Run(actions[..k], st, codec, lib, 0).value, codec, lib) == Failure(f)
  {
    var k := FoldFailsAt(StepWith(codec, lib), actions, st, 0);
    var mid := Fold(StepWith(codec, lib), actions[..k], st, 0).value;
    assert StepWith(codec, lib)(k, actions[k], mid) == Step(k, actions[k], mid, codec, lib);
  }

  /** An unknown name stops the loop at that action, naming it, wherever it stands,
      provided the actions before it succeeded and its descriptor is well-formed. */
  lemma UnknownActionStops(actions: seq<ImageAction>, k: nat, st: State, codec: Codec, lib: Library)
    requires k < |actions|
    requires Run(actions[..k], st, codec, lib, 0).Success?
    requires ActionErrors(actions[k]) == [] && Lookup(actions[k].action).None?
    ensures Run(actions, st, codec, lib, 0) == Failure(UnknownAction(k, actions[k].action))
  {
    assert actions == actions[..k] + actions[k..];
    RunAppend(actions[..k], actions[k..], st, codec, lib, 0);
    RunCons(actions[k..], Run(actions[..k], st, codec, lib, 0).value, codec, lib, k);
    assert actions[k..][0] == actions[k];
  }

  /** The format of a `convert` action, when its payload decodes. */
  function ConvertFormat(a: ImageAction, codec: Codec): Option<string> {
    if a.action == Name(ConvertAction) then
      match codec.convert(a.params)
      case Some(c) => Some(c.format)
      case None => None
    else None
  }

  /** The last convert's format, read from the end of the list, else `initial`. */
  function LastFormat(actions: seq<ImageAction>, codec: Codec, initial: string): string
    decreases |actions|
  {
    if |actions| == 0 then initial
    else
      match ConvertFormat(actions[|actions| - 1], codec)
      case Some(f) => f
      case None => LastFormat(actions[..|actions| - 1], codec, initial)
  }

  /** After a successful loop the pending extension is the last convert's format,
      or the initial extension when no action converts. */
  lemma {:induction false} FinalExtension(actions: seq<ImageAction>, st: State, codec: Codec, lib: Library)
    requires Run(actions, st, codec, lib, 0).Success?
    ensures Run(actions, st, codec, lib, 0).value.ext == LastFormat(actions, codec, st.ext)
    decreases |actions|
  {
    if |actions| > 0 {
      var n := |actions| - 1;
      var init := actions[..n];
      assert actions == init + [actions[n]];
      RunAppend(init, [actions[n]], st, codec, lib, 0);
      var mid := Run(init, st, codec, lib, 0).value;
      FinalExtension(init, st, codec, lib);
      RunCons([actions[n]], mid, codec, lib, n);
      assert [actions[n]][1..] == [];
    }
  }

  /** A list of conversions alone never touches the image. */
  lemma {:induction false} ConversionsKeepImage(actions: seq<ImageAction>, st: State, codec: Codec, lib: Library, from: nat)
    requires forall j | 0 <= j < |actions| :: actions[j].action == Name(ConvertAction)
    requires Run(actions, st, codec, lib, from).Success?
    ensures Run(actions, st, codec, lib, from).value.image == st.image
    decreases |actions|
  {
    if |actions| > 0 {
      var next := Step(from, actions[0], st, codec, lib).value;
      assert forall j | 0 <= j < |actions| - 1 :: actions[1..][j] == actions[j + 1];
      ConversionsKeepImage(actions[1..], next, codec, lib, from + 1);
    }
  }

  // ---------------------------------------------------------------- responses

  /** The message `decodeParams` failures answer with, naming the action's kind. */
  function DecodeFailureText(k: Kind): string {
    "invalid " + Name(k) + " params"
  }

  /** The kind whose message each case of the handler writes: contrast's case
      writes gamma's message, and brightness's and saturation's write sharpen's. */
  function MessageKindAsWritten(k: Kind): Kind {
    match k
    case ContrastAction => GammaAction
    case BrightnessAction => SharpenAction
    case SaturationAction => SharpenAction
    case _ => k
  }

  /** The decode-failure messages as the handler writes them. */
  function DecodeFailureTextAsWritten(k: Kind): string {
    DecodeFailureText(MessageKindAsWritten(k))
  }

  /** The corrected message names the kind: distinct kinds get distinct messages. */
  lemma DecodeFailureTextIdentifiesKind(k1: Kind, k2: Kind)
    ensures DecodeFailureText(k1) == DecodeFailureText(k2) ==> k1 == k2
  {
    Middle("invalid ", Name(k1), " params");
    Middle("invalid ", Name(k2), " params");
    LookupExact(Name(k1), k1);
    LookupExact(Name(k2), k2);
  }

  /** As written, an undecodable contrast payload is reported as a gamma one, and
      undecodable brightness and saturation payloads as sharpen ones; for the
      other six kinds the handler's text is the corrected one. */
  lemma DecodeTextAsWrittenMisnames(k: Kind)
    ensures DecodeFailureTextAsWritten(ContrastAction) == DecodeFailureText(GammaAction)
    ensures DecodeFailureTextAsWritten(BrightnessAction) == DecodeFailureText(SharpenAction)
    ensures DecodeFailureTextAsWritten(SaturationAction) == DecodeFailureText(SharpenAction)
    ensures DecodeFailureTextAsWritten(k) == DecodeFailureText(k) <==>
              k != ContrastAction && k != BrightnessAction && k != SaturationAction
  {
    DecodeFailureTextIdentifiesKind(MessageKindAsWritten(k), k);
  }

  lemma Middle(a: string, m: string, b: string)
    ensures (a + m + b)[|a|..|a + m + b| - |b|] == m
  {
    assert a + m + b == a + (m + b);
  }

  /** The text of the unknown-action error, trailing backtick included. */
  const UnknownPrefix: string := "field "
  const UnknownSuffix: string := " must be one of the allowed values`"

  /** The prefix of the error for an action whose transform failed. */
  const FailedPrefix: string := "failed to perform action "

  /** The response written for a failed action: the validator's rendering for a
      descriptor or record that fails its tags, and a fixed message otherwise. */
  function Render(f: Failure): (resp: R.Response)
    ensures resp.status == R.StatusError
    ensures f.InvalidAction? ==> resp == R.ValidationError(f.errors)
    ensures f.InvalidParams? ==> resp == R.ValidationError(f.errors)
    ensures f.UnknownAction? ==> resp.error == UnknownPrefix + f.action + UnknownSuffix
    ensures f.UndecodableParams? ==> resp.error == DecodeFailureText(f.kind)
    ensures f.ActionFailed? ==> resp.error == FailedPrefix + Name(f.kind) + ": " + f.cause
  {
    match f
    case InvalidAction(_, errs) => R.ValidationError(errs)
    case UnknownAction(_, action) => R.Error(UnknownPrefix + action + UnknownSuffix)
    case UndecodableParams(_, k) => R.Error(DecodeFailureText(k))
    case InvalidParams(_, _, errs) => R.ValidationError(errs)
    case ActionFailed(_, k, cause) => R.Error(FailedPrefix + Name(k) + ": " + cause)
  }

  /** The rendered text identifies what failed: the unknown action's name, and the
      failing kind and its cause, can be read back out of the message. */
  lemma RenderReadBack(f: Failure)
    ensures var msg := Render(f).error;
            f.UnknownAction? ==> msg[|UnknownPrefix|..|msg| - |UnknownSuffix|] == f.action
    ensures var msg := Render(f).error;
            f.ActionFailed? ==>
              && msg[|FailedPrefix|..|FailedPrefix| + |Name(f.kind)|] == Name(f.kind)
              && msg[|FailedPrefix| + |Name(f.kind)| + 2..] == f.cause
  {
    match f
    case UnknownAction(_, a) =>
      Middle(UnknownPrefix, a, UnknownSuffix);
    case ActionFailed(_, k, cause) =>
      Middle(FailedPrefix, Name(k), ": " + cause);
      assert FailedPrefix + Name(k) + ": " + cause == (FailedPrefix + Name(k) + ": ") + cause;
    case _ =>
  }

  // ---------------------------------------------------------------- the handler

  /** The request body as `render.DecodeJSON` left it. */
  datatype Body = EmptyBody | MalformedBody | Decoded(request: Request)

  /** The `ImageProcessor` interface the handler is given; its implementation is a
      parameter. */
  datatype ImageProcessor = ImageProcessor(
    findImage: string -> Result<string, string>,
    loadImage: string -> Result<Image, string>,
    saveImage: (Image, string) -> Result<string, string>,
    generateName: (string, string) -> Result<string, string>)

  /** A call the handler made on the interface. */
  datatype Call =
    | FindImage(name: string)
    | LoadImage(name: string)
    | GenerateName(prefix: string, ext: string)
    | SaveImage(image: Image, name: string)

  /** The JSON response (with `image_url` on success) and the calls made, in order. */
  datatype Reply = Reply(response: R.Response, imageUrl: Option<string>, calls: seq<Call>)

  /** The state the loop starts from: the loaded image and the lower-cased extension
      of the path `FindImage` returned. There is one exactly when the image was both
      found and loaded. */
  function Loaded(req: Request, proc: ImageProcessor): (r: Option<State>)
    ensures r.Some? <==> proc.findImage(req.imageName).Success? && proc.loadImage(req.imageName).Success?
    ensures r.Some? ==> r.value.image == proc.loadImage(req.imageName).value
    ensures r.Some? ==>
              var e := Text.Ext(proc.findImage(req.imageName).value);
              r.value.ext == Text.ToLower(e)
              && Text.IsLower(r.value.ext) && |r.value.ext| == |e| && (e != "" ==> r.value.ext[0] == '.')
  {
    match proc.findImage(req.imageName)
    case Failure(_) => None
    case Success(path) =>
      match proc.loadImage(req.imageName)
      case Failure(_) => None
      case Success(img) =>
        var ext := Text.ToLower(Text.Ext(path));
        Text.LowerFixedPoint(Text.Ext(path));
        assert ext != "" ==> ext[0] == Text.LowerChar(Text.Ext(path)[0]);
        Some(State(img, ext))
  }

  /** Naming and saving the final image: `GenerateName("proc", ext)`, then
      `SaveImage`; the URL is returned only when both succeed. */
  function Finish(loaded: seq<Call>, final: State, proc: ImageProcessor): (reply: Reply)
    ensures |reply.calls| == |loaded| + 1 || |reply.calls| == |loaded| + 2
    ensures reply.calls[..|loaded|] == loaded
    ensures reply.calls[|loaded|] == GenerateName("proc", final.ext)
    ensures |reply.calls| == |loaded| + 2 <==> proc.generateName("proc", final.ext).Success?
    ensures |reply.calls| == |loaded| + 2 ==>
              reply.calls[|loaded| + 1] == SaveImage(final.image, proc.generateName("proc", final.ext).value)
    ensures reply.response.status == R.StatusOK <==> reply.imageUrl.Some?
    ensures reply.response.status == R.StatusOK <==>
              proc.generateName("proc", final.ext).Success?
              && proc.saveImage(final.image, proc.generateName("proc", final.ext).value).Success?
    ensures reply.response.status == R.StatusOK ==>
              |reply.calls| == |loaded| + 2 && reply.response == R.OK()
              && proc.saveImage(final.image, proc.generateName("proc", final.ext).value).Success?
              && reply.imageUrl == Some(proc.saveImage(final.image, proc.generateName("proc", final.ext).value).value)
  {
    var naming := loaded + [GenerateName("proc", final.ext)];
    match proc.generateName("proc", final.ext)
    case Failure(_) => Reply(R.Error("failed to generate name"), None, naming)
    case Success(imgName) =>
      var saving := naming + [SaveImage(final.image, imgName)];
      match proc.saveImage(final.image, imgName)
      case Failure(_) => Reply(R.Error("failed to save image"), None, saving)
      case Success(url) => Reply(R.OK(), Some(url), saving)
  }

  /** Everything after validation: find, load, run the actions, name and save. */
  function Serve(req: Request, proc: ImageProcessor, codec: Codec, lib: Library): (reply: Reply)
    requires RequestErrors(req) == []
    ensures |reply.calls| >= 1 && reply.calls[0] == FindImage(req.imageName)
    ensures |reply.calls| <= 4
    ensures proc.findImage(req.imageName).Failure? ==>
              reply == Reply(R.Error("failed to find image"), None, [FindImage(req.imageName)])
    ensures proc.findImage(req.imageName).Success? && proc.loadImage(req.imageName).Failure? ==>
              reply == Reply(R.Error("failed to load image"), None, [FindImage(req.imageName), LoadImage(req.imageName)])
    ensures Loaded(req, proc).Some? && Run(req.actions.value, Loaded(req, proc).value, codec, lib, 0).Failure? ==>
              reply == Reply(Render(Run(req.actions.value, Loaded(req, proc).value, codec, lib, 0).error), None,
                             [FindImage(req.imageName), LoadImage(req.imageName)])
    ensures |reply.calls| >= 3 <==>
              Loaded(req, proc).Some? && Run(req.actions.value, Loaded(req, proc).value, codec, lib, 0).Success?
    ensures |reply.calls| >= 3 ==>
              Loaded(req, proc).Some? && Run(req.actions.value, Loaded(req, proc).value, codec, lib, 0).Success?
              && reply == Finish([FindImage(req.imageName), LoadImage(req.imageName)],
                                 Run(req.actions.value, Loaded(req, proc).value, codec, lib, 0).value, proc)
  {
    var name := req.imageName;
    match proc.findImage(name)
    case Failure(_) => Reply(R.Error("failed to find image"), None, [FindImage(name)])
    case Success(path) =>
      var ext := Text.ToLower(Text.Ext(path));
      match proc.loadImage(name)
      case Failure(_) => Reply(R.Error("failed to load image"), None, [FindImage(name), LoadImage(name)])
      case Success(img) =>
        var loaded := [FindImage(name), LoadImage(name)];
        match Run(req.actions.value, State(img, ext), codec, lib, 0)
        case Failure(f) => Reply(Render(f), None, loaded)
        case Success(final) => Finish(loaded, final, proc)
  }

  /** The handler returned by `New`. */
  function Handle(body: Body, proc: ImageProcessor, codec: Codec, lib: Library): (reply: Reply)
    ensures body.EmptyBody? ==> reply == Reply(R.Error("empty request"), None, [])
    ensures body.MalformedBody? ==> reply == Reply(R.Error("failed to decode request"), None, [])
    ensures body.Decoded? && RequestErrors(body.request) != [] ==>
              reply == Reply(R.ValidationError(RequestErrors(body.request)), None, [])
    ensures reply.calls != [] <==> body.Decoded? && RequestErrors(body.request) == []
    ensures reply.calls != [] ==> reply == Serve(body.request, proc, codec, lib)
  {
    match body
    case EmptyBody => Reply(R.Error("empty request"), None, [])
    case MalformedBody => Reply(R.Error("failed to decode request"), None, [])
    case Decoded(req) =>
      var checked := R.Validation(RequestErrors(req));
      if !checked.ok then Reply(checked.written.value, None, [])
      else Serve(req, proc, codec, lib)
  }
}

=== FILE: resize.dfy ===
/** Resize parameters with the 0..8000 bounds, and the resize
    (internal/lib/api/resize/resize.go). */
module Resize {
  import opened Results
  import opened GoInt
  import opened Imaging
  import opened Validate

  const MaxSide: int := 8000

  datatype ResizeParams = ResizeParams(width: Int64, height: Int64)

  /** `required,min=0,max=8000` on both sides. */
  function Fields(p: ResizeParams): seq<Field> {
    [ Field("Width", IntV(p.width), [Required, Min(0.0), Max(8000.0)]),
      Field("Height", IntV(p.height), [Required, Min(0.0), Max(8000.0)]) ]
  }

  /** Each side lies in 1..8000: `required` excludes 0 and the bounds are inclusive. */
  predicate Valid(p: ResizeParams) {
    1 <= p.width <= MaxSide && 1 <= p.height <= MaxSide
  }

  function Errors(p: ResizeParams): (errs: seq<FieldError>)
    ensures errs == [] <==> Valid(p)
  {
    var fs := Fields(p);
    FieldOkThree(fs[0]);
    FieldOkThree(fs[1]);
    Struct(fs)
  }

  /** The boundary values 1 and 8000 pass; a zero or negative side fails, and the
      error names the side and the tag that rejected it. */
  lemma Boundaries()
    ensures Valid(ResizeParams(1, 1)) && Valid(ResizeParams(MaxSide, MaxSide))
    ensures Errors(ResizeParams(0, 1)) == [FieldError("Width", Required)]
    ensures Errors(ResizeParams(1, -1)) == [FieldError("Height", Min(0.0))]
  {
  }

  /** 8001 fails the `max` tag, once per side. */
  lemma OversizeRejected()
    ensures Errors(ResizeParams(8001, 8001)) == [FieldError("Width", Max(8000.0)), FieldError("Height", Max(8000.0))]
  {
  }

  /** `ResizeImage` never fails and asks the library for exactly Width x Height. */
  function ResizeImage(p: ResizeParams, img: Image, lib: Library): (r: Result<Image, string>)
    ensures r.Success? && r.value == lib.resize(img, p.width, p.height)
  {
    Success(lib.resize(img, p.width, p.height))
  }
}

=== FILE: response.dfy ===
/** The JSON envelope every handler answers with, and the helper that validates a
    struct and answers for it when it is invalid
    (cmd/internal/lib/api/response/response.go). */
module Response {
  import opened Results
  import opened Validate
  import Text

  const StatusOK: string := "OK"
  const StatusError: string := "Error"

  /** `error` is omitted from the JSON when it is empty. */
  datatype Response = Response(status: string, error: string)

  function OK(): (r: Response)
    ensures r.status == StatusOK && r.error == ""
  {
    Response(StatusOK, "")
  }

  function Error(msg: string): (r: Response)
    ensures r.status == StatusError && r.error == msg
  {
    Response(StatusError, msg)
  }

  function FieldMessage(e: FieldError): string {
    "field " + e.field + " is not valid"
  }

  function FieldMessages(errs: seq<FieldError>): (r: seq<string>)
    ensures |r| == |errs|
    ensures forall k | 0 <= k < |errs| :: r[k] == FieldMessage(errs[k])
  {
    if |errs| == 0 then [] else [FieldMessage(errs[0])] + FieldMessages(errs[1..])
  }

  /** One "field <F> is not valid" per failing field, in order, joined by ", ". */
  function ValidationError(errs: seq<FieldError>): (r: Response)
    ensures r.status == StatusError
    ensures r.error == "" <==> errs == []
    ensures |errs| >= 1 ==> Text.HasPrefix(r.error, FieldMessage(errs[0]))
  {
    var msgs := FieldMessages(errs);
    Response(StatusError, Text.Join(msgs, ", "))
  }

  /** A field name is a Go identifier, so it never holds the ", " separator. */
  predicate PlainName(name: string) {
    forall k | 0 <= k < |name| :: name[k] != ','
  }

  /** A message about a plainly named field holds no comma. */
  lemma FieldMessageHasNoComma(e: FieldError)
    requires PlainName(e.field)
    ensures !Text.Contains(FieldMessage(e), ", ")
  {
    var m := FieldMessage(e);
    var head := "field ";
    var tail := " is not valid";
    assert m == head + e.field + tail;
    forall i | 0 <= i < |m|
      ensures m[i] != ','
    {
      if i < |head| {
        assert m[i] == head[i];
      } else if i < |head| + |e.field| {
        assert m[i] == e.field[i - |head|];
      } else {
        assert m[i] == tail[i - |head| - |e.field|];
      }
    }
    assert forall i | Text.OccursAt(m, ", ", i) :: m[i..i + 2][0] == m[i];
  }

  /** The joined message splits back, on ", ", into exactly one message per failing
      field, in the validator's order. */
  lemma ValidationErrorMessages(errs: seq<FieldError>)
    requires |errs| >= 1
    requires forall k | 0 <= k < |errs| :: PlainName(errs[k].field)
    ensures Text.Split(ValidationError(errs).error, ", ") == FieldMessages(errs)
  {
    var msgs := FieldMessages(errs);
    forall k | 0 <= k < |msgs|
      ensures !Text.Contains(msgs[k], ", ")
    {
      FieldMessageHasNoComma(errs[k]);
    }
    Text.SplitJoin(msgs);
  }

  /** What `Validation` does with a struct: whether it is valid, and the response it
      writes when it is not. */
  datatype Checked = Checked(ok: bool, written: Option<Response>)

  function Validation(errs: seq<FieldError>): (c: Checked)
    ensures c.ok <==> errs == []
    ensures c.written.Some? <==> !c.ok
    ensures c.written.Some? ==> c.written.value.status == StatusError && c.written.value.error != ""
  {
    if errs == [] then Checked(true, None) else Checked(false, Some(ValidationError(errs)))
  }
}

=== FILE: results.dfy ===
/** Failure-carrying wrappers shared by every module of the model: `Option` for a
    value that may be missing (a decoder that rejects its input, a missing JSON
    field) and `Result` for Go's `(value, error)` return pairs. */
module Results {

  datatype Option<+T> = None | Some(value: T)

  /** Go's `(T, error)`: `Success` is a nil error, `Failure` carries the error. */
  datatype Result<+T, +E> = Success(value: T) | Failure(error: E)
}

=== FILE: saturation.dfy ===
/** Saturation parameters and the saturation adjustment
    (internal/lib/api/saturation/saturation.go). */
module Saturation {
  import opened Results
  import opened Imaging
  import opened Validate

  datatype SaturationParams = SaturationParams(percentage: real)

  /** `required,min=-100,max=100` on Percentage. */
  function Fields(p: SaturationParams): seq<Field> {
    [ Field("Percentage", FloatV(p.percentage), [Required, Min(-100.0), Max(100.0)]) ]
  }

  /** A non-zero percentage in -100..100, both ends included. */
  predicate Valid(p: SaturationParams) {
    p.percentage != 0.0 && -100.0 <= p.percentage <= 100.0
  }

  function Errors(p: SaturationParams): (errs: seq<FieldError>)
    ensures errs == [] <==> Valid(p)
    ensures errs != [] ==> errs == [FieldError("Percentage", FirstFailing(Fields(p)[0].tags, FloatV(p.percentage)).value)]
  {
    var fs := Fields(p);
    FieldOkThree(fs[0]);
    Struct(fs)
  }

  /** -100 and 100 pass; 0 fails on `required`, and values beyond the range fail on
      the bound they cross. */
  lemma Boundaries()
    ensures Valid(SaturationParams(-100.0)) && Valid(SaturationParams(100.0))
    ensures Errors(SaturationParams(0.0)) == [FieldError("Percentage", Required)]
    ensures Errors(SaturationParams(-100.5)) == [FieldError("Percentage", Min(-100.0))]
    ensures Errors(SaturationParams(150.0)) == [FieldError("Percentage", Max(100.0))]
  {
  }

  /** `SaturationImage` never fails and hands Percentage to the library unchanged. */
  function SaturationImage(p: SaturationParams, img: Image, lib: Library): (r: Result<Image, string>)
    ensures r.Success? && r.value == lib.saturation(img, p.percentage)
  {
    Success(lib.saturation(img, p.percentage))
  }
}

=== FILE: scenarios.dfy ===
/** Concrete requests run through the handler: the two handler tests of
    internal/http-server/handlers/image/processor/processor_test.go, and concrete
    chains: a crop at the origin, a crop past the edge, a failure in the middle of
    a chain, an unknown action, an out-of-range brightness, a zero payload, and a
    format conversion. The JSON codec and the transform library stay parameters;
    each lemma fixes only what its request needs of them. */
module Scenarios {
  import opened Results
  import opened Json
  import opened Imaging
  import opened Processor
  import Text
  import R = Response
  import Crop
  import Resize
  import Brightness
  import Sharpen
  import Convert
  import ImageStore
  import Validate

  const Square: Json := JObject([("width", JNumber(100.0)), ("height", JNumber(100.0))])

  /** The mocked `ImageProcessor` of the success test: it knows one image and one
      naming, and answers anything else with an error. */
  function TestProcessor(): ImageProcessor {
    ImageProcessor(
      (n: string) => if n == "test-image.png" then Success("/path/to/test-image.png") else Failure("image not found"),
      (n: string) => if n == "test-image.png" then Success(Image(100, 100)) else Failure("unexpected call"),
      (img: Image, n: string) => if n == "new-image.png" then Success("/path/to/new-image.png") else Failure("unexpected call"),
      (prefix: string, ext: string) =>
        if prefix == "proc" && ext == ".png" then Success("new-image.png") else Failure("unexpected call"))
  }

  lemma PngExtension()
    ensures Text.ToLower(Text.Ext("/path/to/test-image.png")) == ".png"
  {
    Text.ExtOfSuffix("/path/to/test-image.png", ".png");
    Text.LowerFixedPoint(".png");
  }

  /** The loop of the success test: one resize of the loaded image. */
  lemma ResizeRuns(codec: Codec, lib: Library)
    requires codec.resize(Square) == Some(Resize.ResizeParams(100, 100))
    ensures Run([ImageAction("resize", Square)], State(Image(100, 100), ".png"), codec, lib, 0)
            == Success(State(lib.resize(Image(100, 100), 100, 100), ".png"))
  {
    var actions := [ImageAction("resize", Square)];
    var st := State(Image(100, 100), ".png");
    var p := ResizeArgs(Resize.ResizeParams(100, 100));
    KnownAction(actions[0], codec, ResizeAction);
    assert ParamsValid(p);
    StepOnDecoded(0, actions[0], st, codec, lib, p);
    RunCons(actions, st, codec, lib, 0);
  }

  const TestRequest: Request := Request(Some([ImageAction("resize", Square)]), "test-image.png")

  /** The success test's request passes validation and its image loads with the
      extension ".png". */
  lemma TestRequestLoads()
    ensures RequestErrors(TestRequest) == []
    ensures Loaded(TestRequest, TestProcessor()) == Some(State(Image(100, 100), ".png"))
  {
    PngExtension();
  }

  /** The success test's request reaches the find-load-run stage. */
  lemma TestRequestServed(codec: Codec, lib: Library)
    ensures Handle(Decoded(TestRequest), TestProcessor(), codec, lib) == Serve(TestRequest, TestProcessor(), codec, lib)
  {
    TestRequestLoads();
  }

  /** ... its resize succeeds and the handler goes on to name and save. */
  lemma TestRequestFinishes(codec: Codec, lib: Library)
    requires codec.resize(Square) == Some(Resize.ResizeParams(100, 100))
    ensures Serve(TestRequest, TestProcessor(), codec, lib)
            == Finish([FindImage("test-image.png"), LoadImage("test-image.png")],
                      State(lib.resize(Image(100, 100), 100, 100), ".png"), TestProcessor())
  {
    TestRequestLoads();
    ResizeRuns(codec, lib);
  }

  /** A resize of a found `.png` image is named with the extension ".png" and
      answers the URL `SaveImage` returned. */
  lemma ResizeRequestSucceeds(codec: Codec, lib: Library)
    requires codec.resize(Square) == Some(Resize.ResizeParams(100, 100))
    ensures var reply := Handle(Decoded(TestRequest), TestProcessor(), codec, lib);
            reply.response == R.OK() && reply.imageUrl == Some("/path/to/new-image.png")
            && reply.calls == [ FindImage("test-image.png"), LoadImage("test-image.png"),
                                GenerateName("proc", ".png"),
                                SaveImage(lib.resize(Image(100, 100), 100, 100), "new-image.png") ]
  {
    TestRequestServed(codec, lib);
    TestRequestFinishes(codec, lib);
    var proc := TestProcessor();
    var final := State(lib.resize(Image(100, 100), 100, 100), ".png");
    assert proc.generateName("proc", ".png") == Success("new-image.png");
    assert proc.saveImage(final.image, "new-image.png") == Success("/path/to/new-image.png");
  }

  /** An image the store cannot find ends the request after the lookup alone. */
  lemma MissingImageIsReported(codec: Codec, lib: Library)
    ensures Handle(Decoded(Request(Some([ImageAction("resize", Square)]), "nonexistent-image.png")),
                   TestProcessor(), codec, lib)
            == Reply(R.Error("failed to find image"), None, [FindImage("nonexistent-image.png")])
  {
  }

  /** A crop whose corner is at the origin is rejected by the record's `required`
      tags, wherever it stands in the chain, before any crop is attempted. */
  lemma CropAtOriginRejected(codec: Codec, lib: Library, st: State, resizeArgs: Json, cropArgs: Json)
    requires HasValue(resizeArgs) && HasValue(cropArgs)
    requires codec.resize(resizeArgs) == Some(Resize.ResizeParams(50, 50))
    requires codec.crop(cropArgs) == Some(Crop.CropParams(0, 0, 50, 50))
    ensures var r := Run([ImageAction("resize", resizeArgs), ImageAction("crop", cropArgs)], st, codec, lib, 0);
            r.Failure? && r.error.InvalidParams? && r.error.index == 1 && r.error.kind == CropAction
            && r.error.errors == Crop.Errors(Crop.CropParams(0, 0, 50, 50))
    ensures var r := Run([ImageAction("crop", cropArgs), ImageAction("resize", resizeArgs)], st, codec, lib, 0);
            r.Failure? && r.error.InvalidParams? && r.error.index == 0 && r.error.kind == CropAction
  {
    var actions := [ImageAction("resize", resizeArgs), ImageAction("crop", cropArgs)];
    var rp := ResizeArgs(Resize.ResizeParams(50, 50));
    var cp := CropArgs(Crop.CropParams(0, 0, 50, 50));
    KnownAction(actions[0], codec, ResizeAction);
    KnownAction(actions[1], codec, CropAction);
    assert ParamsValid(rp) && !ParamsValid(cp);
    var next := State(lib.resize(st.image, 50, 50), st.ext);
    StepOnDecoded(0, actions[0], st, codec, lib, rp);
    RunCons(actions, st, codec, lib, 0);
    StepOnDecoded(1, actions[1], next, codec, lib, cp);
    assert actions[1..] == [actions[1]];
    RunCons(actions[1..], next, codec, lib, 1);
    var swapped := [ImageAction("crop", cropArgs), ImageAction("resize", resizeArgs)];
    StepOnDecoded(0, swapped[0], st, codec, lib, cp);
    RunCons(swapped, st, codec, lib, 0);
  }

  /** A crop reaching past the image's edge passes its tags and fails on bounds. */
  lemma CropBeyondBoundsFails(codec: Codec, lib: Library, cropArgs: Json, ext: string)
    requires HasValue(cropArgs)
    requires codec.crop(cropArgs) == Some(Crop.CropParams(90, 90, 50, 50))
    ensures Run([ImageAction("crop", cropArgs)], State(Image(100, 100), ext), codec, lib, 0)
            == Failure(ActionFailed(0, CropAction, Crop.ErrorText(Crop.ExceedsBounds)))
  {
    var a := ImageAction("crop", cropArgs);
    var p := CropArgs(Crop.CropParams(90, 90, 50, 50));
    KnownAction(a, codec, CropAction);
    assert ParamsValid(p);
    assert Apply(p, State(Image(100, 100), ext), lib) == Failure(Crop.ErrorText(Crop.ExceedsBounds));
    StepOnDecoded(0, a, State(Image(100, 100), ext), codec, lib, p);
    RunCons([a], State(Image(100, 100), ext), codec, lib, 0);
  }

  /** A bounds failure in the middle of a chain stops it there: the action after it
      never runs. */
  lemma MiddleFailureStops(codec: Codec, lib: Library, ext: string,
                           resizeArgs: Json, cropArgs: Json, sharpenArgs: Json)
    requires HasValue(resizeArgs) && HasValue(cropArgs)
    requires codec.resize(resizeArgs) == Some(Resize.ResizeParams(50, 50))
    requires codec.crop(cropArgs) == Some(Crop.CropParams(90, 90, 50, 50))
    requires lib.resize(Image(100, 100), 50, 50) == Image(50, 50)
    ensures var actions := [ImageAction("resize", resizeArgs), ImageAction("crop", cropArgs), ImageAction("sharpen", sharpenArgs)];
            Run(actions, State(Image(100, 100), ext), codec, lib, 0)
            == Failure(ActionFailed(1, CropAction, Crop.ErrorText(Crop.ExceedsBounds)))
  {
    var actions := [ImageAction("resize", resizeArgs), ImageAction("crop", cropArgs), ImageAction("sharpen", sharpenArgs)];
    var st := State(Image(100, 100), ext);
    var rp := ResizeArgs(Resize.ResizeParams(50, 50));
    var cp := CropArgs(Crop.CropParams(90, 90, 50, 50));
    KnownAction(actions[0], codec, ResizeAction);
    KnownAction(actions[1], codec, CropAction);
    assert ParamsValid(rp) && ParamsValid(cp);
    var next := State(Image(50, 50), ext);
    assert Apply(rp, st, lib) == Success(next);
    StepOnDecoded(0, actions[0], st, codec, lib, rp);
    assert Apply(cp, next, lib) == Failure(Crop.ErrorText(Crop.ExceedsBounds));
    StepOnDecoded(1, actions[1], next, codec, lib, cp);
    RunCons(actions, st, codec, lib, 0);
    assert actions[1..][0] == actions[1];
    RunCons(actions[1..], next, codec, lib, 1);
  }

  /** ... and nothing is named or saved: the reply reports the crop and carries no
      URL. */
  lemma MiddleFailureSavesNothing(codec: Codec, lib: Library, proc: ImageProcessor,
                                  resizeArgs: Json, cropArgs: Json, sharpenArgs: Json)
    requires HasValue(resizeArgs) && HasValue(cropArgs)
    requires codec.resize(resizeArgs) == Some(Resize.ResizeParams(50, 50))
    requires codec.crop(cropArgs) == Some(Crop.CropParams(90, 90, 50, 50))
    requires proc.findImage("photo.jpg").Success? && proc.loadImage("photo.jpg") == Success(Image(100, 100))
    requires lib.resize(Image(100, 100), 50, 50) == Image(50, 50)
    ensures var actions := [ImageAction("resize", resizeArgs), ImageAction("crop", cropArgs), ImageAction("sharpen", sharpenArgs)];
            var reply := Handle(Decoded(Request(Some(actions), "photo.jpg")), proc, codec, lib);
            reply.calls == [FindImage("photo.jpg"), LoadImage("photo.jpg")] && reply.imageUrl.None?
            && reply.response == Render(ActionFailed(1, CropAction, Crop.ErrorText(Crop.ExceedsBounds)))
  {
    var actions := [ImageAction("resize", resizeArgs), ImageAction("crop", cropArgs), ImageAction("sharpen", sharpenArgs)];
    var req := Request(Some(actions), "photo.jpg");
    assert RequestErrors(req) == [];
    var st := Loaded(req, proc).value;
    MiddleFailureStops(codec, lib, st.ext, resizeArgs, cropArgs, sharpenArgs);
    var f := ActionFailed(1, CropAction, Crop.ErrorText(Crop.ExceedsBounds));
    assert Run(actions, st, codec, lib, 0) == Failure(f);
    assert Serve(req, proc, codec, lib) == Reply(Render(f), None, [FindImage("photo.jpg"), LoadImage("photo.jpg")]);
    assert Handle(Decoded(req), proc, codec, lib) == Serve(req, proc, codec, lib);
  }

  /** A name the handler does not know stops the chain at that action, naming it. */
  lemma RotateIsUnknown(codec: Codec, lib: Library, st: State, args: Json)
    requires HasValue(args)
    ensures Run([ImageAction("rotate", args)], st, codec, lib, 0) == Failure(UnknownAction(0, "rotate"))
  {
    RunCons([ImageAction("rotate", args)], st, codec, lib, 0);
  }

  /** A brightness of 150 fails its `max` tag, so no transform runs. */
  lemma BrightnessOutOfRange(codec: Codec, lib: Library, st: State, args: Json)
    requires HasValue(args)
    requires codec.brightness(args) == Some(Brightness.BrightnessParams(150.0))
    ensures var r := Run([ImageAction("brightness", args)], st, codec, lib, 0);
            r == Failure(InvalidParams(0, BrightnessAction, [Validate.FieldError("Percentage", Validate.Max(100.0))]))
  {
    var a := ImageAction("brightness", args);
    var p := BrightnessArgs(Brightness.BrightnessParams(150.0));
    var errs := [Validate.FieldError("Percentage", Validate.Max(100.0))];
    assert ParamErrors(p) == errs by {
      Brightness.Boundaries();
    }
    KnownAction(a, codec, BrightnessAction);
    StepOnDecoded(0, a, st, codec, lib, p);
    assert Step(0, a, st, codec, lib) == Failure(InvalidParams(0, BrightnessAction, errs));
    RunCons([a], st, codec, lib, 0);
  }

  /** A payload of 0 is a non-nil interface: it passes the descriptor's `required`
      and reaches the decoder, whose failure is what the handler reports. */
  lemma ZeroPayloadReachesDecoder(codec: Codec, lib: Library, st: State)
    requires codec.crop(JNumber(0.0)).None?
    ensures ActionErrors(ImageAction("crop", JNumber(0.0))) == []
    ensures Run([ImageAction("crop", JNumber(0.0))], st, codec, lib, 0) == Failure(UndecodableParams(0, CropAction))
  {
    var a := ImageAction("crop", JNumber(0.0));
    KnownAction(a, codec, CropAction);
    RunCons([a], st, codec, lib, 0);
  }

  /** Converting a `.jpg` image to "png" keeps its pixels, hands "png" to the
      name generator, and the storage's generator and encoder then produce a
      ".png" name written as PNG. */
  lemma ConvertJpegToPng(codec: Codec, lib: Library, img: Image, args: Json, now: ImageStore.DateTime)
    requires HasValue(args)
    requires codec.convert(args) == Some(Convert.ConvertParams("png"))
    ensures var r := Run([ImageAction("convert", args)], State(img, ".jpg"), codec, lib, 0);
            r == Success(State(img, "png"))
    ensures var name := ImageStore.GenerateName("proc", "png", now);
            name.Success? && Text.Ext(name.value) == ".png"
            && ImageStore.FormatFor(Text.ToLower(Text.Ext(name.value))) == Some(ImageStore.PNG)
  {
    var a := ImageAction("convert", args);
    var p := ConvertArgs(Convert.ConvertParams("png"));
    KnownAction(a, codec, ConvertAction);
    Text.LowerFixedPoint("png");
    assert ParamsValid(p);
    StepOnDecoded(0, a, State(img, ".jpg"), codec, lib, p);
    RunCons([a], State(img, ".jpg"), codec, lib, 0);
    PngName(now);
  }

  lemma PngName(now: ImageStore.DateTime)
    ensures var name := ImageStore.GenerateName("proc", "png", now);
            name.Success? && Text.Ext(name.value) == ".png"
            && ImageStore.FormatFor(Text.ToLower(Text.Ext(name.value))) == Some(ImageStore.PNG)
  {
    assert ImageStore.NormaliseExt("png") == ".png";
    ImageStore.GeneratedNameExtension("proc", "png", now);
    Text.LowerFixedPoint(".png");
  }
}

=== FILE: sharpen.dfy ===
/** Sharpen parameters and the sharpen transform (internal/lib/api/sharpen/sharpen.go). */
module Sharpen {
  import opened Results
  import opened Imaging
  import opened Validate

  datatype SharpenParams = SharpenParams(sigma: real)

  /** `required,min=0.1,max=100.0` on Sigma. */
  function Fields(p: SharpenParams): seq<Field> {
    [ Field("Sigma", FloatV(p.sigma), [Required, Min(0.1), Max(100.0)]) ]
  }

  /** Sigma in 0.1..100.0, both ends included; `required` adds nothing, since 0 is
      already below the minimum. */
  predicate Valid(p: SharpenParams) {
    0.1 <= p.sigma <= 100.0
  }

  function Errors(p: SharpenParams): (errs: seq<FieldError>)
    ensures errs == [] <==> Valid(p)
    ensures errs != [] ==> errs == [FieldError("Sigma", FirstFailing(Fields(p)[0].tags, FloatV(p.sigma)).value)]
  {
    var fs := Fields(p);
    FieldOkThree(fs[0]);
    Struct(fs)
  }

  /** 0.1 and 100.0 pass; values beyond the range fail on the bound they cross. */
  lemma Boundaries()
    ensures Valid(SharpenParams(0.1)) && Valid(SharpenParams(100.0))
    ensures Errors(SharpenParams(0.0)) == [FieldError("Sigma", Required)]
    ensures Errors(SharpenParams(0.05)) == [FieldError("Sigma", Min(0.1))]
    ensures Errors(SharpenParams(100.5)) == [FieldError("Sigma", Max(100.0))]
  {
  }

  /** `SharpenImage` never fails and hands Sigma to the library unchanged. */
  function SharpenImage(p: SharpenParams, img: Image, lib: Library): (r: Result<Image, string>)
    ensures r.Success? && r.value == lib.sharpen(img, p.sigma)
  {
    Success(lib.sharpen(img, p.sigma))
  }
}

=== FILE: storage.dfy ===
/** The file-system image store's pure parts (cmd/internal/storage/img/img.go):
    output naming, the save-format dispatch and the upload checks. The file system,
    the image codecs and the clock are parameters. */
module ImageStore {
  import opened Results
  import opened Imaging
  import Text

  /** A wall-clock reading, as `time.Now()` would give it. */
  datatype DateTime = DateTime(year: nat, month: nat, day: nat, hour: nat, minute: nat, second: nat)

  predicate ValidDateTime(t: DateTime) {
    t.year <= 9999 && 1 <= t.month <= 12 && 1 <= t.day <= 31
    && t.hour < 24 && t.minute < 60 && t.second < 60
  }

  function DigitChar(d: nat): char
    requires d < 10
  {
    ('0' as int + d) as char
  }

  predicate IsDigit(c: char) {
    '0' <= c <= '9'
  }

  /** The decimal digits of `n`, without leading zeros. */
  function Digits(n: nat): (s: string)
    ensures |s| >= 1
    ensures forall k | 0 <= k < |s| :: IsDigit(s[k])
    ensures n < 10 ==> |s| == 1
    ensures n < 100 ==> |s| <= 2
    ensures n < 10000 ==> |s| <= 4
  {
    if n < 10 then [DigitChar(n)] else Digits(n / 10) + [DigitChar(n % 10)]
  }

  /** `n` in decimal, left-padded with zeros to at least `width` characters, as Go's
      layout elements "2006" (width 4) and "01", "02", "15", "04", "05" (width 2) print it. */
  function Padded(n: nat, width: nat): (s: string)
    ensures |s| >= width
    ensures forall k | 0 <= k < |s| :: IsDigit(s[k])
  {
    var d := Digits(n);
    if |d| >= width then d else seq(width - |d|, _ => '0') + d
  }

  /** `time.Format("20060102150405")`. */
  function FormatStamp(t: DateTime): (s: string)
    ensures ValidDateTime(t) ==> |s| == 14
    ensures forall k | 0 <= k < |s| :: IsDigit(s[k])
  {
    Padded(t.year, 4) + Padded(t.month, 2) + Padded(t.day, 2)
    + Padded(t.hour, 2) + Padded(t.minute, 2) + Padded(t.second, 2)
  }

  /** The value of a string of decimal digits. */
  function Decimal(s: string): nat
    requires forall k | 0 <= k < |s| :: IsDigit(s[k])
  {
    if |s| == 0 then 0
    else
      assert IsDigit(s[|s| - 1]);
      Decimal(s[..|s| - 1]) * 10 + (s[|s| - 1] as int - '0' as int)
  }

  lemma {:induction false} DecimalDigits(n: nat)
    ensures Decimal(Digits(n)) == n
  {
    if n >= 10 {
      var d := Digits(n / 10) + [DigitChar(n % 10)];
      assert d[..|d| - 1] == Digits(n / 10);
      DecimalDigits(n / 10);
    }
  }

  lemma {:induction false} DecimalLeadingZeros(z: nat, s: string)
    requires forall k | 0 <= k < |s| :: IsDigit(s[k])
    ensures Decimal(seq(z, _ => '0') + s) == Decimal(s)
    decreases |s|
  {
    var t := seq(z, _ => '0') + s;
    if |s| == 0 {
      assert t == seq(z, _ => '0');
      ZerosAreZero(z);
    } else {
      assert t[..|t| - 1] == seq(z, _ => '0') + s[..|s| - 1];
      DecimalLeadingZeros(z, s[..|s| - 1]);
    }
  }

  lemma {:induction false} ZerosAreZero(z: nat)
    ensures Decimal(seq(z, _ => '0')) == 0
  {
    if z > 0 {
      assert seq(z, _ => '0')[..z - 1] == seq(z - 1, _ => '0');
      ZerosAreZero(z - 1);
    }
  }

  lemma DecimalPadded(n: nat, width: nat)
    ensures Decimal(Padded(n, width)) == n
  {
    DecimalDigits(n);
    var d := Digits(n);
    if |d| < width {
      DecimalLeadingZeros(width - |d|, d);
    }
  }

  /** Reads a 14-digit stamp back into its fields. */
  function ParseStamp(s: string): DateTime
    requires |s| == 14 && forall k | 0 <= k < |s| :: IsDigit(s[k])
  {
    DateTime(Decimal(s[0..4]), Decimal(s[4..6]), Decimal(s[6..8]),
             Decimal(s[8..10]), Decimal(s[10..12]), Decimal(s[12..14]))
  }

  /** Where each part sits in a concatenation of one 4-character and five
      2-character parts. */
  lemma SixParts(a: string, b: string, c: string, d: string, e: string, f: string)
    requires |a| == 4 && |b| == 2 && |c| == 2 && |d| == 2 && |e| == 2 && |f| == 2
    ensures var s := a + b + c + d + e + f;
            && s[0..4] == a && s[4..6] == b && s[6..8] == c
            && s[8..10] == d && s[10..12] == e && s[12..14] == f
  {
    var s := a + b + c + d + e + f;
    assert s[0..4] == a by { assert forall k | 0 <= k < 4 :: s[k] == a[k]; }
    assert s[4..6] == b by { assert forall k | 0 <= k < 2 :: s[4 + k] == b[k]; }
    assert s[6..8] == c by { assert forall k | 0 <= k < 2 :: s[6 + k] == c[k]; }
    assert s[8..10] == d by { assert forall k | 0 <= k < 2 :: s[8 + k] == d[k]; }
    assert s[10..12] == e by { assert forall k | 0 <= k < 2 :: s[10 + k] == e[k]; }
    assert s[12..14] == f by { assert forall k | 0 <= k < 2 :: s[12 + k] == f[k]; }
  }

  /** The stamp in every generated name is 14 digits that read back to the moment it
      was taken, so no two moments a second apart share one. */
  lemma StampRoundTrip(t: DateTime)
    requires ValidDateTime(t)
    ensures ParseStamp(FormatStamp(t)) == t
  {
    SixParts(Padded(t.year, 4), Padded(t.month, 2), Padded(t.day, 2),
             Padded(t.hour, 2), Padded(t.minute, 2), Padded(t.second, 2));
    DecimalPadded(t.year, 4);
    DecimalPadded(t.month, 2);
    DecimalPadded(t.day, 2);
    DecimalPadded(t.hour, 2);
    DecimalPadded(t.minute, 2);
    DecimalPadded(t.second, 2);
  }

  /** The extension with a leading "." added only when it is missing. */
  function NormaliseExt(ext: string): (r: string)
    ensures |r| >= 1 && r[0] == '.'
    ensures r == ext || r == "." + ext
    ensures Text.HasPrefix(ext, ".") <==> r == ext
  {
    if Text.HasPrefix(ext, ".") then ext else "." + ext
  }

  lemma NormaliseIdempotent(ext: string)
    ensures NormaliseExt(NormaliseExt(ext)) == NormaliseExt(ext)
  {
  }

  const NameError: string := "the file prefix or extension must not be empty"

  /** `GenerateName`: `prefix_<stamp><ext>`, with `now` standing for `time.Now()`. */
  function GenerateName(prefix: string, fileExt: string, now: DateTime): (r: Result<string, string>)
    ensures r.Failure? <==> prefix == "" || fileExt == ""
    ensures r.Failure? ==> r.error == NameError
    ensures r.Success? ==> Text.HasPrefix(r.value, prefix + "_") && Text.HasSuffix(r.value, NormaliseExt(fileExt))
    ensures r.Success? && ValidDateTime(now) ==>
              |r.value| == |prefix| + 15 + |NormaliseExt(fileExt)|
              && r.value[|prefix| + 1..|prefix| + 15] == FormatStamp(now)
  {
    if prefix == "" || fileExt == "" then Failure(NameError)
    else
      var name := prefix + "_" + FormatStamp(now) + NormaliseExt(fileExt);
      assert name == (prefix + "_") + FormatStamp(now) + NormaliseExt(fileExt);
      Success(name)
  }

  /** A generated name's own extension is the normalised one it was generated with,
      as long as that holds no second '.' and no '/'. */
  lemma GeneratedNameExtension(prefix: string, fileExt: string, now: DateTime)
    requires prefix != "" && fileExt != ""
    requires '.' !in NormaliseExt(fileExt)[1..] && '/' !in NormaliseExt(fileExt)[1..]
    ensures Text.Ext(GenerateName(prefix, fileExt, now).value) == NormaliseExt(fileExt)
  {
    Text.ExtOfSuffix(GenerateName(prefix, fileExt, now).value, NormaliseExt(fileExt));
  }

  datatype ImageFormat = JPEG | PNG

  /** The encoder `SaveImage` picks for a lower-cased extension. */
  function FormatFor(ext: string): (r: Option<ImageFormat>)
    ensures r == Some(JPEG) <==> ext == ".jpg" || ext == ".jpeg"
    ensures r == Some(PNG) <==> ext == ".png"
  {
    if ext == ".jpg" || ext == ".jpeg" then Some(JPEG)
    else if ext == ".png" then Some(PNG)
    else None
  }

  /** `filepath.Join` of a storage directory and a file name. */
  function JoinPath(dir: string, name: string): (r: string)
    ensures Text.HasSuffix(r, name)
  {
    if dir == "" then name
    else if name == "" then dir
    else if Text.HasSuffix(dir, "/") then dir + name
    else dir + "/" + name
  }

  /** A file written by an encoder. */
  datatype Write = Write(format: ImageFormat, path: string, image: Image)

  /** What `SaveImage` returned, and the encoder call it made, if any (made whether
      or not the encoder then reported an error). */
  datatype Saved = Saved(result: Result<string, string>, wrote: Option<Write>)

  /** `SaveImage`: the name's lower-cased extension selects JPEG or PNG; any other
      extension is refused before anything is written. `encode` is the file system
      and the codec, answering an error message or nothing. */
  function SaveImage(root: string, img: Image, name: string,
                     encode: (ImageFormat, string, Image) -> Option<string>): (s: Saved)
    ensures var ext := Text.ToLower(Text.Ext(name));
            FormatFor(ext).None? ==>
              s == Saved(Failure("storage.img.SaveImage: unsupported file format: " + ext), None)
    ensures var ext := Text.ToLower(Text.Ext(name));
            FormatFor(ext).Some? ==> s.wrote == Some(Write(FormatFor(ext).value, JoinPath(root, name), img))
    ensures s.result.Success? ==> s.result.value == JoinPath(root, name) && s.wrote.Some?
  {
    var path := JoinPath(root, name);
    var ext := Text.ToLower(Text.Ext(name));
    match FormatFor(ext)
    case None => Saved(Failure("storage.img.SaveImage: unsupported file format: " + ext), None)
    case Some(f) =>
      match encode(f, path, img)
      case Some(e) => Saved(Failure("storage.img.SaveImage: " + e), Some(Write(f, path, img)))
      case None => Saved(Success(path), Some(Write(f, path, img)))
  }

  /** The MIME types accepted for upload: two `image/` subtypes. */
  function IsImage(mimeType: string): (r: bool)
    ensures r ==> Text.HasPrefix(mimeType, "image/")
  {
    mimeType == "image/jpeg" || mimeType == "image/png"
  }

  /** The I/O of an upload: errors from reading the first 512 bytes and rewinding,
      from `os.Create` at a path, and from copying the upload into the file created
      there. */
  datatype UploadIO = UploadIO(readErr: Option<string>, seekErr: Option<string>,
                               create: string -> Option<string>, copy: string -> Option<string>)

  /** What `UploadImage` returned, and the path at which it created a file, if any
      (a file stays created when the copy into it then fails). */
  datatype Uploaded = Uploaded(result: Result<string, string>, created: Option<string>)

  const UploadOp: string := "storage.img.UploadImage"

  /** `UploadImage`: `mimeType` is what content sniffing reported for the first 512
      bytes and `fileName` the client's file name. */
  function UploadImage(root: string, mimeType: string, fileName: string, now: DateTime, io: UploadIO): (u: Uploaded)
    ensures io.readErr.None? && io.seekErr.None? && !IsImage(mimeType) ==>
              u == Uploaded(Failure(UploadOp + ": unsupported file type: " + mimeType), None)
    ensures u.created.Some? ==>
              IsImage(mimeType) && GenerateName("img", Text.Ext(fileName), now).Success?
              && u.created.value == JoinPath(root, GenerateName("img", Text.Ext(fileName), now).value)
    ensures u.result.Success? ==>
              GenerateName("img", Text.Ext(fileName), now).Success?
              && var name := GenerateName("img", Text.Ext(fileName), now).value;
              u.created.Some? && u.result.value == "/images/" + name && Text.HasPrefix(name, "img_")
    ensures u.created.Some? ==> io.create(u.created.value).None?
    ensures u.result.Success? <==> u.created.Some? && io.copy(u.created.value).None?
    ensures Text.Ext(fileName) == "" ==> u.result.Failure? && u.created.None?
  {
    if io.readErr.Some? then Uploaded(Failure(UploadOp + ": " + io.readErr.value), None)
    else if io.seekErr.Some? then Uploaded(Failure(UploadOp + ": " + io.seekErr.value), None)
    else if !IsImage(mimeType) then Uploaded(Failure(UploadOp + ": unsupported file type: " + mimeType), None)
    else
      match GenerateName("img", Text.Ext(fileName), now)
      case Failure(e) => Uploaded(Failure(e), None)
      case Success(name) =>
        var path := JoinPath(root, name);
        match io.create(path)
        case Some(e) => Uploaded(Failure(UploadOp + ": " + e), None)
        case None =>
          match io.copy(path)
          case Some(e) => Uploaded(Failure(UploadOp + ": " + e), Some(path))
          case None => Uploaded(Success("/images/" + name), Some(path))
  }

  /** An upload creates a file exactly when reading and rewinding succeed, the sniffed
      type is image/jpeg or image/png, the client's file name has an extension, and
      `os.Create` succeeds at the generated path; image/jpg and image/gif are refused
      like any other type. */
  lemma UploadAcceptsOnlyJpegAndPng(root: string, mimeType: string, fileName: string, now: DateTime, io: UploadIO)
    ensures UploadImage(root, mimeType, fileName, now, io).created.Some? <==>
              && io.readErr.None? && io.seekErr.None?
              && (mimeType == "image/jpeg" || mimeType == "image/png")
              && Text.Ext(fileName) != ""
              && io.create(JoinPath(root, GenerateName("img", Text.Ext(fileName), now).value)).None?
    ensures io.readErr.None? && io.seekErr.None? ==>
              && UploadImage(root, "image/jpg", fileName, now, io).result.Failure?
              && UploadImage(root, "image/gif", fileName, now, io).result.Failure?
  {
  }
}

=== FILE: text.dfy ===
/** The pieces of Go's `strings` and `path/filepath` packages that the handlers and
    the storage rely on: `ToLower`, `HasPrefix`, `Join`, `Split` and `filepath.Ext`. */
module Text {

  predicate IsUpper(c: char) {
    'A' <= c <= 'Z'
  }

  function LowerChar(c: char): char {
    if IsUpper(c) then (c as int + 32) as char else c
  }

  /** `strings.ToLower`, for the ASCII letters. */
  function ToLower(s: string): (r: string)
    ensures |r| == |s|
    ensures forall i | 0 <= i < |s| :: r[i] == LowerChar(s[i])
  {
    if |s| == 0 then "" else [LowerChar(s[0])] + ToLower(s[1..])
  }

  /** A string holding no upper-case letter. */
  predicate IsLower(s: string) {
    forall i | 0 <= i < |s| :: !IsUpper(s[i])
  }

  /** A string is its own lower-case form exactly when it holds no upper-case letter,
      and lower-casing always yields such a string. */
  lemma LowerFixedPoint(s: string)
    ensures ToLower(s) == s <==> IsLower(s)
    ensures IsLower(ToLower(s))
  {
    if ToLower(s) == s {
      forall i | 0 <= i < |s|
        ensures !IsUpper(s[i])
      {
        assert ToLower(s)[i] == LowerChar(s[i]);
      }
    }
  }

  predicate HasPrefix(s: string, prefix: string) {
    |prefix| <= |s| && s[..|prefix|] == prefix
  }

  predicate HasSuffix(s: string, suffix: string) {
    |suffix| <= |s| && s[|s| - |suffix|..] == suffix
  }

  /** `filepath.Ext` on a Unix path: the suffix from the final '.' of the last path
      element, or "" when that element holds no '.'. */
  function Ext(path: string): (r: string)
    ensures HasSuffix(path, r)
    ensures r != "" ==> r[0] == '.' && '.' !in r[1..] && '/' !in r[1..]
    ensures r == "" ==> forall i | 0 <= i < |path| && path[i] == '.' :: '/' in path[i + 1..]
  {
    if |path| == 0 then ""
    else
      var c := path[|path| - 1];
      var init := path[..|path| - 1];
      if c == '/' then ""
      else if c == '.' then "."
      else
        var e := Ext(init);
        assert path == init + [c];
        if e == "" then
          forall i | 0 <= i < |init| && init[i] == '.'
            ensures '/' in path[i + 1..]
          {
            assert path[i + 1..] == init[i + 1..] + [c];
          }
          ""
        else
          assert (e + [c])[1..] == e[1..] + [c];
          e + [c]
  }

  /** A path that ends in a '.'-led extension holding no further '.' or '/' has
      exactly that extension. */
  lemma ExtOfSuffix(path: string, e: string)
    requires e != "" && e[0] == '.' && '.' !in e[1..] && '/' !in e[1..]
    requires HasSuffix(path, e)
    ensures Ext(path) == e
  {
    var r := Ext(path);
    var d := |path| - |e|;
    assert path[d] == '.';
    if r == "" {
      assert false;
    }
    if |r| > |e| {
      assert false;
    } else if |r| < |e| {
      assert false;
    }
  }

  /** `strings.Join`. */
  function Join(parts: seq<string>, sep: string): (r: string)
    ensures |parts| >= 1 ==> HasPrefix(r, parts[0])
  {
    if |parts| == 0 then ""
    else if |parts| == 1 then parts[0]
    else parts[0] + sep + Join(parts[1..], sep)
  }

  predicate OccursAt(s: string, sep: string, i: int) {
    0 <= i && i + |sep| <= |s| && s[i..i + |sep|] == sep
  }

  /** `strings.Index`: the first position of `sep` in `s`, or -1. */
  function Index(s: string, sep: string): (r: int)
    requires |sep| > 0
    ensures r == -1 || 0 <= r <= |s| - |sep|
    ensures r >= 0 ==> OccursAt(s, sep, r) && forall j | 0 <= j < r :: !OccursAt(s, sep, j)
    ensures r == -1 ==> forall j | 0 <= j <= |s| - |sep| :: !OccursAt(s, sep, j)
    decreases |s|
  {
    if |s| < |sep| then -1
    else if s[..|sep|] == sep then 0
    else
      var k := Index(s[1..], sep);
      forall j | 1 <= j <= |s| - |sep|
        ensures OccursAt(s, sep, j) <==> OccursAt(s[1..], sep, j - 1)
      {
        assert s[1..][j - 1..j - 1 + |sep|] == s[j..j + |sep|];
      }
      if k < 0 then -1 else k + 1
  }

  /** `strings.Split` with a non-empty separator. */
  function Split(s: string, sep: string): seq<string>
    requires |sep| > 0
    decreases |s|
  {
    var i := Index(s, sep);
    if i < 0 then [s] else [s[..i]] + Split(s[i + |sep|..], sep)
  }

  predicate Contains(s: string, sep: string) {
    exists i | 0 <= i <= |s| :: OccursAt(s, sep, i)
  }

  /** Splitting on ", " undoes joining with ", " whenever no part contains the
      separator itself. */
  lemma {:induction false} SplitJoin(parts: seq<string>)
    requires |parts| >= 1
    requires forall k | 0 <= k < |parts| :: !Contains(parts[k], ", ")
    ensures Split(Join(parts, ", "), ", ") == parts
  {
    var sep := ", ";
    var p := parts[0];
    if |parts| == 1 {
      var i := Index(p, sep);
      if i >= 0 {
        assert false;
      }
    } else {
      var rest := Join(parts[1..], sep);
      var s := p + sep + rest;
      assert OccursAt(s, sep, |p|) by {
        assert s[|p|..|p| + 2] == sep;
      }
      forall j | 0 <= j < |p|
        ensures !OccursAt(s, sep, j)
      {
        if j + 2 <= |p| {
          assert s[j..j + 2] == p[j..j + 2];
          assert !OccursAt(p, sep, j) by {
            assert !Contains(p, sep);
          }
        } else {
          assert s[j + 1] == ',';
          assert s[j..j + 2][1] == s[j + 1];
        }
      }
      assert Index(s, sep) == |p|;
      assert s[..|p|] == p;
      assert s[|p| + 2..] == rest;
      SplitJoin(parts[1..]);
    }
  }
}

=== FILE: validate.dfy ===
/** The struct-tag rules of the request validator, re-expressed as data: a struct
    is the sequence of its fields, each with its value and the tags declared on it
    (`required`, `min`, `max`, `gte`, `lowercase`). */
module Validate {
  import opened Results
  import opened Json
  import Text

  /** A field value as the validator sees it: Go `int`, `float64`, `string`, a slice
      (nil or with a length), or an `interface{}` holding a decoded JSON value. */
  datatype Value =
    | IntV(i: int)
    | FloatV(f: real)
    | StrV(s: string)
    | ListV(isNil: bool, len: nat)
    | AnyV(j: Json)

  datatype Tag = Required | Min(bound: real) | Max(bound: real) | Gte(bound: real) | Lowercase

  datatype Field = Field(name: string, value: Value, tags: seq<Tag>)

  /** One entry of the validator's error list: the struct field and the first tag it failed. */
  datatype FieldError = FieldError(field: string, tag: Tag)

  function TagName(t: Tag): string {
    match t
    case Required => "required"
    case Min(_) => "min"
    case Max(_) => "max"
    case Gte(_) => "gte"
    case Lowercase => "lowercase"
  }

  /** The quantity `min`, `max` and `gte` compare: a number's value, a string's
      length in characters, a slice's length. */
  function Size(v: Value): real
    requires !v.AnyV?
  {
    match v
    case IntV(i) => i as real
    case FloatV(f) => f
    case StrV(s) => |s| as real
    case ListV(_, n) => n as real
  }

  /** `required`: a non-zero number, a non-empty string, a non-nil slice, or an
      interface holding a value. */
  predicate Present(v: Value) {
    match v
    case IntV(i) => i != 0
    case FloatV(f) => f != 0.0
    case StrV(s) => s != ""
    case ListV(isNil, _) => !isNil
    case AnyV(j) => HasValue(j)
  }

  /** Whether one tag accepts a value. A size tag or `lowercase` on a field of
      the wrong kind makes the validator panic; no struct of the model declares one,
      and here it simply does not hold. */
  predicate Holds(t: Tag, v: Value) {
    match t
    case Required => Present(v)
    case Min(b) => !v.AnyV? && Size(v) >= b
    case Gte(b) => !v.AnyV? && Size(v) >= b
    case Max(b) => !v.AnyV? && Size(v) <= b
    case Lowercase => v.StrV? && Text.ToLower(v.s) == v.s
  }

  /** The first tag of a field that rejects its value; the validator reports only that one. */
  function FirstFailing(tags: seq<Tag>, v: Value): (r: Option<Tag>)
    ensures r.None? <==> forall k | 0 <= k < |tags| :: Holds(tags[k], v)
    ensures r.Some? ==> exists k | 0 <= k < |tags| :: tags[k] == r.value && !Holds(tags[k], v)
                          && forall m | 0 <= m < k :: Holds(tags[m], v)
  {
    if |tags| == 0 then None
    else if !Holds(tags[0], v) then Some(tags[0])
    else
      var r := FirstFailing(tags[1..], v);
      assert forall k | 1 <= k < |tags| :: tags[k] == tags[1..][k - 1];
      r
  }

  predicate FieldOk(f: Field) {
    forall k | 0 <= k < |f.tags| :: Holds(f.tags[k], f.value)
  }

  /** The field at `k` is reported, by `e`, with the first tag it failed. */
  predicate Reports(fields: seq<Field>, k: int, e: FieldError) {
    0 <= k < |fields| && fields[k].name == e.field
    && FirstFailing(fields[k].tags, fields[k].value) == Some(e.tag)
  }

  /** A field with one, two or three tags is valid when each of them holds. */
  lemma FieldOkOne(f: Field)
    requires |f.tags| == 1
    ensures FieldOk(f) <==> Holds(f.tags[0], f.value)
  {
  }

  lemma FieldOkTwo(f: Field)
    requires |f.tags| == 2
    ensures FieldOk(f) <==> Holds(f.tags[0], f.value) && Holds(f.tags[1], f.value)
  {
    if Holds(f.tags[0], f.value) && Holds(f.tags[1], f.value) {
      forall k | 0 <= k < 2
        ensures Holds(f.tags[k], f.value)
      {
      }
    }
  }

  lemma FieldOkThree(f: Field)
    requires |f.tags| == 3
    ensures FieldOk(f) <==> Holds(f.tags[0], f.value) && Holds(f.tags[1], f.value) && Holds(f.tags[2], f.value)
  {
    if Holds(f.tags[0], f.value) && Holds(f.tags[1], f.value) && Holds(f.tags[2], f.value) {
      forall k | 0 <= k < 3
        ensures Holds(f.tags[k], f.value)
      {
      }
    }
  }

  /** `validator.Struct`: one error per failing field, in declaration order. */
  function Struct(fields: seq<Field>): (errs: seq<FieldError>)
    ensures errs == [] <==> forall k | 0 <= k < |fields| :: FieldOk(fields[k])
    ensures |errs| <= |fields|
  {
    if |fields| == 0 then []
    else
      var f := fields[0];
      var tail := fields[1..];
      var rest := Struct(tail);
      assert forall k | 1 <= k < |fields| :: fields[k] == tail[k - 1];
      match FirstFailing(f.tags, f.value)
      case None =>
        assert FieldOk(f);
        rest
      case Some(t) =>
        assert Reports(fields, 0, FieldError(f.name, t));
        [FieldError(f.name, t)] + rest
  }

  /** Every reported error names a failing field, with the first tag that field failed. */
  lemma {:induction false} StructSound(fields: seq<Field>)
    ensures forall e | e in Struct(fields) :: exists k :: Reports(fields, k, e)
  {
    if |fields| > 0 {
      var tail := fields[1..];
      StructSound(tail);
      forall e | e in Struct(fields)
        ensures exists k :: Reports(fields, k, e)
      {
        if e in Struct(tail) {
          var k :| Reports(tail, k, e);
          assert Reports(fields, k + 1, e);
        } else {
          assert Reports(fields, 0, e);
        }
      }
    }
  }

  /** Every failing field is reported. */
  lemma {:induction false} StructComplete(fields: seq<Field>)
    ensures forall k | 0 <= k < |fields| && !FieldOk(fields[k]) :: exists e | e in Struct(fields) :: Reports(fields, k, e)
  {
    if |fields| > 0 {
      var tail := fields[1..];
      StructComplete(tail);
      forall k | 0 <= k < |fields| && !FieldOk(fields[k])
        ensures exists e | e in Struct(fields) :: Reports(fields, k, e)
      {
        if k == 0 {
          var t := FirstFailing(fields[0].tags, fields[0].value).value;
          assert Reports(fields, 0, FieldError(fields[0].name, t));
        } else {
          assert fields[k] == tail[k - 1];
          var e :| e in Struct(tail) && Reports(tail, k - 1, e);
          assert Reports(fields, k, e);
        }
      }
    }
  }

  /** The positions, from `from` on, of the fields that fail their tags. */
  function FailingFrom(fields: seq<Field>, from: nat): seq<nat>
    decreases |fields| - from
  {
    if from >= |fields| then []
    else (if FieldOk(fields[from]) then [] else [from]) + FailingFrom(fields, from + 1)
  }

  /** The positions of the failing fields: exactly those, each once, in increasing
      order. */
  lemma {:induction false} FailingExact(fields: seq<Field>, from: nat)
    ensures forall j | 0 <= j < |FailingFrom(fields, from)| ::
              from <= FailingFrom(fields, from)[j] < |fields| && !FieldOk(fields[FailingFrom(fields, from)[j]])
    ensures forall j, m | 0 <= j < m < |FailingFrom(fields, from)| ::
              FailingFrom(fields, from)[j] < FailingFrom(fields, from)[m]
    ensures forall k | from <= k < |fields| && !FieldOk(fields[k]) :: k in FailingFrom(fields, from)
    decreases |fields| - from
  {
    if from < |fields| {
      FailingExact(fields, from + 1);
      var rest := FailingFrom(fields, from + 1);
      var head: seq<nat> := if FieldOk(fields[from]) then [] else [from];
      var ks := head + rest;
      assert FailingFrom(fields, from) == ks;
      assert forall j | |head| <= j < |ks| :: ks[j] == rest[j - |head|];
      assert forall k | from < k < |fields| && !FieldOk(fields[k]) :: k in rest;
    }
  }

  /** The errors are exactly one per failing field, in declaration order: the j-th
      error reports the j-th failing field with the first tag it failed. */
  lemma {:induction false} StructInOrder(fields: seq<Field>, from: nat)
    requires from <= |fields|
    ensures |Struct(fields[from..])| == |FailingFrom(fields, from)|
    ensures forall j | 0 <= j < |Struct(fields[from..])| ::
              Reports(fields, FailingFrom(fields, from)[j], Struct(fields[from..])[j])
    decreases |fields| - from
  {
    if from < |fields| {
      StructInOrder(fields, from + 1);
      var here := fields[from..];
      assert here[0] == fields[from];
      assert here[1..] == fields[from + 1..];
      var f := fields[from];
      var rest := Struct(fields[from + 1..]);
      var later := FailingFrom(fields, from + 1);
      match FirstFailing(f.tags, f.value)
      case None =>
        assert Struct(here) == rest;
        assert FailingFrom(fields, from) == later;
      case Some(t) =>
        assert Struct(here) == [FieldError(f.name, t)] + rest;
        assert FailingFrom(fields, from) == [from] + later;
        assert Reports(fields, from, FieldError(f.name, t));
    }
  }

  /** The text of one validator error, `Key: '<Struct>.<Field>' Error:Field
      validation for '<Field>' failed on the '<tag>' tag`. */
  function ErrorLine(structName: string, e: FieldError): string {
    "Key: '" + structName + "." + e.field + "' Error:Field validation for '" + e.field
    + "' failed on the '" + TagName(e.tag) + "' tag"
  }

  function ErrorLines(structName: string, errs: seq<FieldError>): (r: seq<string>)
    ensures |r| == |errs|
    ensures forall k | 0 <= k < |errs| :: r[k] == ErrorLine(structName, errs[k])
  {
    if |errs| == 0 then [] else [ErrorLine(structName, errs[0])] + ErrorLines(structName, errs[1..])
  }

  /** `ValidationErrors.Error()`: the error lines joined by newlines. */
  function ErrorsText(structName: string, errs: seq<FieldError>): string {
    Text.Join(ErrorLines(structName, errs), "\n")
  }
}

=== FILE: variants.dfy ===
/** How the older crop-only handler and the multi-action handler differ, and where
    they agree. */
module Variants {
  import opened Results
  import opened Json
  import opened Imaging
  import Crop
  import Processor
  import Process

  /** An empty (non-null) action list passes the older handler's validation, which
      then saves the image untouched; the later handler's `min=1` rejects it. */
  lemma EmptyActionList(name: string, img: Image, decode: Json -> Option<Crop.CropParams>, codec: Processor.Codec, lib: Library)
    requires name != "" && |name| <= 100
    ensures Process.RequestErrors(Process.Request(Some([]), name)) == []
    ensures Process.Run([], img, decode, lib) == Success(img)
    ensures Processor.RequestErrors(Processor.Request(Some([]), name)) != []
  {
  }

  /** The older handler's `oneof=crop resize convert` tag is never applied: a resize
      passes validation and is then refused by the loop as an unknown action. */
  lemma ResizePassesValidationButIsUnknown(name: string, args: Json, img: Image,
                                           decode: Json -> Option<Crop.CropParams>, lib: Library)
    requires name != "" && |name| <= 100
    ensures Process.RequestErrors(Process.Request(Some([Process.ImageAction("resize", args)]), name)) == []
    ensures Process.Run([Process.ImageAction("resize", args)], img, decode, lib)
            == Failure(Process.UnknownAction(0, "resize"))
  {
    Process.FirstNonCropStops([Process.ImageAction("resize", args)], 0, img, decode, lib);
  }

  /** The multi-action request carrying the same descriptors. */
  function Lift(xs: seq<Process.ImageAction>): (ys: seq<Processor.ImageAction>)
    ensures |ys| == |xs|
    ensures forall j | 0 <= j < |xs| :: ys[j] == Processor.ImageAction(xs[j].action, xs[j].params)
  {
    seq(|xs|, j requires 0 <= j < |xs| => Processor.ImageAction(xs[j].action, xs[j].params))
  }

  predicate CropChain(xs: seq<Process.ImageAction>) {
    forall j | 0 <= j < |xs| :: xs[j].action == "crop" && HasValue(xs[j].params)
  }

  /** On one crop the two handlers succeed together, with the same image and at
      the same index otherwise; the later one keeps the extension. */
  lemma CropStepsAgree(i: nat, a: Process.ImageAction, img: Image, ext: string,
                       codec: Processor.Codec, lib: Library)
    requires a.action == "crop" && HasValue(a.params)
    ensures var older := Process.Step(i, a, img, codec.crop, lib);
            var later := Processor.Step(i, Processor.ImageAction(a.action, a.params), Processor.State(img, ext), codec, lib);
            && (older.Success? <==> later.Success?)
            && (older.Success? ==> later.value == Processor.State(older.value, ext))
            && (older.Failure? ==> later.error.index == i)
  {
    var b := Processor.ImageAction(a.action, a.params);
    Processor.KnownAction(b, codec, Processor.CropAction);
    match codec.crop(a.params)
    case None =>
    case Some(p) =>
      Processor.StepOnDecoded(i, b, Processor.State(img, ext), codec, lib, Processor.CropArgs(p));
  }

  /** On a chain of crops the two handlers agree: both succeed with the same image,
      or both fail at the same action. */
  lemma {:induction false} CropChainsAgree(xs: seq<Process.ImageAction>, img: Image, ext: string,
                                           codec: Processor.Codec, lib: Library, from: nat)
    requires CropChain(xs)
    ensures var older := Processor.Fold(Process.StepWith(codec.crop, lib), xs, img, from);
            var later := Processor.Fold(Processor.StepWith(codec, lib), Lift(xs), Processor.State(img, ext), from);
            && (older.Success? <==> later.Success?)
            && (older.Success? ==> later.value == Processor.State(older.value, ext))
            && (older.Failure? ==> older.error.index == later.error.index)
    decreases |xs|
  {
    if |xs| > 0 {
      var ys := Lift(xs);
      var st := Processor.State(img, ext);
      CropStepsAgree(from, xs[0], img, ext, codec, lib);
      var older := Process.Step(from, xs[0], img, codec.crop, lib);
      var later := Processor.Step(from, ys[0], st, codec, lib);
      assert Process.StepWith(codec.crop, lib)(from, xs[0], img) == older;
      assert Processor.StepWith(codec, lib)(from, ys[0], st) == later;
      if older.Success? {
        assert CropChain(xs[1..]) by {
          assert forall j | 0 <= j < |xs| - 1 :: xs[1..][j] == xs[j + 1];
        }
        assert Lift(xs[1..]) == ys[1..];
        CropChainsAgree(xs[1..], older.value, ext, codec, lib, from + 1);
      }
    }
  }

  /** The handlers' loops, from the start: crop chains behave alike in both. */
  lemma CropRunsAgree(xs: seq<Process.ImageAction>, img: Image, ext: string, codec: Processor.Codec, lib: Library)
    requires CropChain(xs)
    ensures var older := Process.Run(xs, img, codec.crop, lib);
            var later := Processor.Run(Lift(xs), Processor.State(img, ext), codec, lib, 0);
            && (older.Success? <==> later.Success?)
            && (older.Success? ==> later.value == Processor.State(older.value, ext))
            && (older.Failure? ==> older.error.index == later.error.index)
  {
    CropChainsAgree(xs, img, ext, codec, lib, 0);
  }
}
